=== FILE: README.md ===
# Bafang display UART decoding, modelled in Dafny

This project models the protocol core of an Android e-bike display app for
Bafang/BBS-FW mid-drive controllers. The app talks to the motor controller over
a USB serial link. It encodes read requests as short byte frames. It decodes
what the controller sends back from a stream that arrives in arbitrary chunks,
and it publishes a connection status.

The repository holds two lineages of the same code:

- the `com.badsheepy` package: `SerialToDisplayMessageConvertor`, its message
  classes and `FWVersion`;
- the `com.example` package: an older packaged `usbDataMonitor/UsbDataMonitor`
  and a top-level `UsbDataMonitor`, with their own message file.

Modules, one per source concept:

| module | file | models |
|---|---|---|
| `Wrappers` | wrappers.dfy | `Option` |
| `Bytes` | bytes.dfy | JVM signed bytes over wire bytes, 32-bit `Int`/`UInt` wrap-around, `drop` |
| `Framing` | framing.dfy | one decoder call (`Step`), a run of calls (`Fed`), the delivered stream |
| `Connection` | connection.dfy | `UsbStatus`, the listener callbacks, bind/unbind bookkeeping, the send guards |
| `MessageTypes` | message_types.dfy | the five-family opcode table |
| `FwVersion` | fw_version.dfy | `FWVersion`, `getVersion`, `toString` and its inverse |
| `BafangMessage` | bafang_message.dfy | the `com.badsheepy` message classes, `getBytes`, `computeChecksum` |
| `ExampleMessage` | example_message.dfy | the `com.example` message classes with the appended checksum |
| `Convertor` | convertor.dfy | `SerialToDisplayMessageConvertor`: decoder, monitor state machine, polling |
| `PackagedMonitor` | packaged_monitor.dfy | `com.example...usbDataMonitor.UsbDataMonitor` |
| `RootMonitor` | root_monitor.dfy | `com.example.UsbDataMonitor` |
| `DecoderComparison` | decoder_comparison.dfy | the three decoders on the same bytes |

Modelling choices:

- Bytes are wire values 0..255; a Kotlin `Byte` is read through `Signed`.
- A decoder is a pure function from (buffer, chunk) to (new buffer, published
  message). `Feed` folds it over a sequence of chunks.
- A monitor is a state record plus a `Next` function over events. Events are
  the platform callbacks (service bound or unbound, listener callbacks, data)
  and the public calls.
- The serial service is a parameter: whether it accepts a send is a boolean
  input. What its device search reports (an attach, or a connection error,
  which the service may raise synchronously inside `findAndConnectDevice`) is
  modelled as a separate listener event that follows the `FindAndConnect`
  event.
- Listener callbacks, received data included, reach a monitor only while it
  is bound: the listener is installed in `onServiceConnected` and removed
  wherever `isBound` becomes false (`Connection.Listening`).
- The wait loop of `startPollingWithRequests` reads what each check observes
  from a sequence, because other threads change the status between checks.

Behaviour of the code worth knowing:

- Each `onUsbDataReceived` makes ONE parse attempt and drops what that attempt
  consumed. There is no loop that drains the buffer, so a second frame in a
  chunk waits for the next chunk.
- Every monitor starts with status `Disconnected`.
- The convertor's 0x20 branch publishes the parameterless speed request object
  `BafangReadSpeedMessage`. It never builds a `BafangReadSpeedMessageReceived`.
- `BafangReadSpeedMessageReceived` reads its two fields from bytes 0 and 1 of
  the data it is given.
- The `com.badsheepy` `getBytes` sends no checksum. Its unused
  `computeChecksum` skips the first byte. The `com.example` `getBytes` appends
  a checksum over every byte. The hard-coded firmware request `01 01 02`
  matches only the latter rule.
- `onServiceDisconnected` and `stopMonitoring` set `ServiceUnbound` and then
  test the status for `Connected`. That test can never succeed, and `Unbind`
  keeps it visibly dead.
- The packaged monitor imports `MessageType.BBSFW_READ`, `OSFW_READ` and
  `BafangReadMessage` from a package whose own message file does not declare
  them. It is modelled with the five-family table and the `com.badsheepy`
  message classes, which do declare them.

## Model

| member | source | states |
|---|---|---|
| Bytes.Signed | app/src/main/java/com/badsheepy/bafflingvision/FWVersion.kt:3 | a wire byte read as a JVM `Byte` is congruent to it mod 256 and negative exactly when the wire value is 128 or more |
| Bytes.Unsigned | app/src/main/java/com/badsheepy/bafflingvision/FWVersion.kt:3 | inverse of `Signed`: the wire byte whose signed reading is the given `Byte` |
| Bytes.AddInt | app/src/main/java/com/badsheepy/bafflingvision/BafangMessage.kt:140-142 | a Kotlin `Int` addition is the true sum wrapped into the signed 32-bit range: it differs from the sum by a multiple of 2^32, so its low eight bits are the sum's |
| Bytes.LowByte | app/src/main/java/com/example/bafflingvision/BafangMessage.kt:64-69 | `toByte()` keeps the low eight bits: the byte differs from the integer by a multiple of 256 |
| Bytes.AddUInt | app/src/main/java/com/example/bafflingvision/BafangMessage.kt:66-68 | a `UInt` addition is the true sum reduced modulo 2^32 into 0..2^32-1, so its low eight bits are the sum's |
| Bytes.ToUInt | app/src/main/java/com/example/bafflingvision/BafangMessage.kt:67 | `Byte.toUInt()` sign-extends: a byte below 128 keeps its value, a byte of 128 or more becomes 2^32 - 256 plus its value, and the low eight bits never change |
| Bytes.Drop | app/src/main/java/com/badsheepy/bafflingvision/usbDataMonitor/SerialToDisplayMessageConvertor.kt:94 | `drop(n)` leaves a suffix of the buffer, `n` bytes shorter, or empty when `n` exceeds the size |
| Connection.ReadErrorText | app/src/main/java/com/badsheepy/bafflingvision/usbDataMonitor/SerialToDisplayMessageConvertor.kt:104-106 | the read-error status text starts with "Read Error: " and then carries the exception message verbatim |
| Connection.ListenerStatus | app/src/main/java/com/badsheepy/bafflingvision/usbDataMonitor/SerialToDisplayMessageConvertor.kt:61-115 | attach publishes `Connected(name)`, detach `Disconnected`, connection and read errors an `Error`; a write error leaves the status alone, and these are the only ways to get `Connected`/`Disconnected` |
| Connection.ListenerStatusForgetsHistory | app/src/main/java/com/badsheepy/bafflingvision/usbDataMonitor/SerialToDisplayMessageConvertor.kt:61-108 | every callback except a write error publishes a status independent of the previous one |
| Connection.ReadErrorKeepsMessage | app/src/main/java/com/badsheepy/bafflingvision/usbDataMonitor/SerialToDisplayMessageConvertor.kt:104-106 | a read error with message m publishes exactly `Error("Read Error: " + m)` |
| Connection.FindAndConnectDevice | app/src/main/java/com/badsheepy/bafflingvision/usbDataMonitor/SerialToDisplayMessageConvertor.kt:201-208 | unbound: the status becomes the fixed not-bound error and nothing else changes; bound: the monitor state is untouched by the call itself, and what the service's search reports is a separate listener event |
| Connection.OnServiceConnected | app/src/main/java/com/badsheepy/bafflingvision/usbDataMonitor/SerialToDisplayMessageConvertor.kt:157-165 | after binding the monitor is bound, its service assigned, and its status `ServiceBound` |
| Connection.Unbind | app/src/main/java/com/badsheepy/bafflingvision/usbDataMonitor/SerialToDisplayMessageConvertor.kt:167-177 | after unbinding the monitor is unbound with status `ServiceUnbound`; the assigned service is kept |
| Connection.StopMonitoring | app/src/main/java/com/badsheepy/bafflingvision/usbDataMonitor/SerialToDisplayMessageConvertor.kt:187-199 | a bound monitor ends unbound with `ServiceUnbound`; an unbound one is left exactly as it was |
| Connection.OnListener | app/src/main/java/com/badsheepy/bafflingvision/usbDataMonitor/SerialToDisplayMessageConvertor.kt:61-115 | listener callbacks never change the binding or the service assignment |
| Connection.SendChecked | app/src/main/java/com/badsheepy/bafflingvision/usbDataMonitor/SerialToDisplayMessageConvertor.kt:217-223 | data is only reported sent when the monitor is bound and its service assigned |
| Connection.SendIfBound | app/src/main/java/com/example/bafflingvision/usbDataMonitor/UsbDataMonitor.kt:173-179 | data is only reported sent when the monitor is bound |
| Connection.SendGuardsAgree | app/src/main/java/com/badsheepy/bafflingvision/usbDataMonitor/SerialToDisplayMessageConvertor.kt:217-223 | on every reachable link (bound implies assigned) the two send guards give the same answer |
| MessageTypes.FromCode | app/src/main/java/com/example/bafflingvision/MessageTypes.kt:3-9 | the family a leading byte names has that code, and `None` means no family has it |
| MessageTypes.FromCodeInvertsCode | app/src/main/java/com/example/bafflingvision/MessageTypes.kt:3-9 | codes are pairwise distinct, so decoding a family code gives the family back |
| MessageTypes.SpeedTagIsNotAFamily | app/src/main/java/com/badsheepy/bafflingvision/usbDataMonitor/SerialToDisplayMessageConvertor.kt:86 | the hard-coded 0x20 speed tag collides with no family of the table |
| FwVersion.VersionOf | app/src/main/java/com/badsheepy/bafflingvision/BafangMessage.kt:93-96 | a response shorter than eight bytes yields version 0.0.0 |
| FwVersion.ResponseFrame | app/src/main/java/com/badsheepy/bafflingvision/BafangMessage.kt:87-91 | a firmware response frame is eight bytes long |
| FwVersion.VersionOfResponseFrame | app/src/main/java/com/badsheepy/bafflingvision/BafangMessage.kt:93-96 | reading back a response frame built from any version yields that version, and the frame is recognised as a response |
| FwVersion.VersionOfIgnoresTail | app/src/main/java/com/badsheepy/bafflingvision/BafangMessage.kt:93-96 | only the first eight bytes decide the version: extra trailing bytes and truncation to eight change nothing |
| FwVersion.ShortResponseLooksLikeZero | app/src/main/java/com/badsheepy/bafflingvision/BafangMessage.kt:94 | a short response cannot be told from a genuine 0.0.0 response |
| FwVersion.DecimalRoundTrip | app/src/main/java/com/badsheepy/bafflingvision/FWVersion.kt:5 | the decimal digits printed for a natural number denote that number |
| FwVersion.IntToDecimal | app/src/main/java/com/badsheepy/bafflingvision/FWVersion.kt:5 | a printed `Byte` starts with a minus sign exactly when it is negative |
| FwVersion.ParseIntToDecimal | app/src/main/java/com/badsheepy/bafflingvision/FWVersion.kt:5 | reading back the printed text of any integer gives that integer |
| FwVersion.ToString | app/src/main/java/com/badsheepy/bafflingvision/FWVersion.kt:4-6 | the rendering starts with "Version " |
| FwVersion.ParseToString | app/src/main/java/com/badsheepy/bafflingvision/FWVersion.kt:3-6 | the rendered text parses back to the same version |
| FwVersion.ToStringInjective | app/src/main/java/com/badsheepy/bafflingvision/FWVersion.kt:3-6 | two versions render alike only when they are equal |
| FwVersion.WireFFPrintsMinusOne | app/src/main/java/com/badsheepy/bafflingvision/FWVersion.kt:3-6 | a wire byte 0xFF prints as -1, because the fields are signed |
| BafangMessage.GetBytes | app/src/main/java/com/badsheepy/bafflingvision/BafangMessage.kt:130-137 | the two hard-coded requests encode to three bytes, every other message to exactly two |
| BafangMessage.TypeOf | app/src/main/java/com/badsheepy/bafflingvision/BafangMessage.kt:47-108 | only the error sentinel declares the unknown family; every read request, and the firmware-version response, declares the Bafang read family |
| BafangMessage.OpcodeOf | app/src/main/java/com/badsheepy/bafflingvision/BafangMessage.kt:47-104 | a probe object carries its own code and a basic-data read the code it was given; the version request, its response and the event-log request share the OSFW read opcode; a received speed frame keeps the speed probe opcode 0x20 |
| BafangMessage.GetVersion | app/src/main/java/com/badsheepy/bafflingvision/BafangMessage.kt:93-96 | a response shorter than eight bytes reports 0.0.0; otherwise the wire bytes of major, minor and patch are bytes 2, 3 and 4 of the response |
| BafangMessage.HeaderOfGetBytes | app/src/main/java/com/badsheepy/bafflingvision/BafangMessage.kt:130-137 | every message with the inherited encoding is identified again, type and opcode, from its own bytes |
| BafangMessage.OverriddenHeaders | app/src/main/java/com/badsheepy/bafflingvision/BafangMessage.kt:53-63 | the firmware and event-log requests go out under the BBS-FW read code although their declared type is the Bafang read family; their full frames are 01 01 02 and 01 02 03 |
| BafangMessage.DefaultEncodings | app/src/main/java/com/badsheepy/bafflingvision/BafangMessage.kt:47-81 | the wire bytes of the basic-data read, each probe object and the sentinels |
| BafangMessage.BasicDataMatchesProbes | app/src/main/java/com/badsheepy/bafflingvision/BafangMessage.kt:47-51 | a basic-data read with a probe's code is the same frame as that probe object |
| BafangMessage.ComputeChecksum | app/src/main/java/com/badsheepy/bafflingvision/BafangMessage.kt:139-145 | the checksum is the sum of every byte but the first, reduced to eight bits, despite signed accumulation with 32-bit wrap |
| BafangMessage.TailChecksumIgnoresFirst | app/src/main/java/com/badsheepy/bafflingvision/BafangMessage.kt:141 | the first byte never influences the checksum |
| BafangMessage.ChecksumTestVector | app/src/test/java/com/badsheepy/bafflingvision/ExampleUnitTest.kt:34-36 | the checksum of 11 51 04 B0 is 0x05 |
| BafangMessage.FirmwareRequestNotTailChecksummed | app/src/main/java/com/badsheepy/bafflingvision/BafangMessage.kt:53-57 | the hard-coded firmware request's third byte is the sum of BOTH header bytes, not what `computeChecksum` gives |
| BafangMessage.SpeedReceivedOf | app/src/main/java/com/badsheepy/bafflingvision/BafangMessage.kt:75-78 | a received speed message exists exactly when at least two bytes are given, and carries bytes 0 and 1 |
| BafangMessage.SpeedReceivedEncodesAsRequest | app/src/main/java/com/badsheepy/bafflingvision/BafangMessage.kt:74-78 | a received speed message has the speed request's type, opcode and encoding |
| BafangMessage.Sentinels | app/src/main/java/com/badsheepy/bafflingvision/BafangMessage.kt:103-104 | the no-op and error sentinels carry (Bafang read, 0x00) and (unknown, 0x0f) |
| ExampleMessage.FromCode | app/src/main/java/com/example/bafflingvision/BafangMessage.kt:3-7 | the local READ/WRITE/UNKNOWN table decodes exactly its own codes |
| ExampleMessage.TypeOf | app/src/main/java/com/example/bafflingvision/BafangMessage.kt:9-33 | only the error sentinel declares UNKNOWN, and no message declares WRITE |
| ExampleMessage.OpcodeOf | app/src/main/java/com/example/bafflingvision/BafangMessage.kt:10-16 | the firmware request and its response share one opcode |
| ExampleMessage.GetVersion | app/src/main/java/com/example/bafflingvision/BafangMessage.kt:22-25 | a response shorter than eight bytes reports 0.0.0; otherwise the wire bytes of major, minor and patch are bytes 2, 3 and 4 of the response |
| ExampleMessage.SumOfUInt | app/src/main/java/com/example/bafflingvision/BafangMessage.kt:65-69 | the wrapped `UInt` sum of sign-extended bytes stays in 32 bits and agrees mod 256 with the plain byte sum |
| ExampleMessage.ComputeChecksum | app/src/main/java/com/example/bafflingvision/BafangMessage.kt:65-69 | the checksum is the plain byte sum, first byte included, reduced to eight bits |
| ExampleMessage.GetBytes | app/src/main/java/com/example/bafflingvision/BafangMessage.kt:59-63 | every message encodes to type code, opcode, and their eight-bit sum |
| ExampleMessage.ParseGetBytes | app/src/main/java/com/example/bafflingvision/BafangMessage.kt:59-63 | every encoded message is a well-formed frame naming its own type and opcode |
| ExampleMessage.ParseFrameSound | app/src/main/java/com/example/bafflingvision/BafangMessage.kt:59-63 | a frame that passes the check is exactly the encoding of what it names |
| ExampleMessage.KnownEncodings | app/src/main/java/com/example/bafflingvision/BafangMessage.kt:10-33 | the firmware request is 01 01 02; the no-op and error sentinels encode as 01 00 01 and 0F 0F 1E |
| ExampleMessage.Sentinels | app/src/main/java/com/example/bafflingvision/BafangMessage.kt:32-33 | the no-op and error sentinels carry (READ, 0x00) and (UNKNOWN, 0x0f) |
| Convertor.ProcessReadMessage | app/src/main/java/com/badsheepy/bafflingvision/usbDataMonitor/SerialToDisplayMessageConvertor.kt:286-305 | something is consumed exactly when the buffer starts a complete 01 01 response; then eight bytes are consumed and a response holding exactly those eight is published |
| Convertor.ProcessBafangReadMessage | app/src/main/java/com/badsheepy/bafflingvision/usbDataMonitor/SerialToDisplayMessageConvertor.kt:307-319 | the Bafang read handler consumes nothing and publishes nothing |
| Convertor.ProcessWriteMessage | app/src/main/java/com/badsheepy/bafflingvision/usbDataMonitor/SerialToDisplayMessageConvertor.kt:326-331 | the BBS-FW write handler consumes nothing and publishes nothing |
| Convertor.ProcessSpeedMessage | app/src/main/java/com/badsheepy/bafflingvision/usbDataMonitor/SerialToDisplayMessageConvertor.kt:321-324 | always publishes the speed request and claims three bytes; the claim exceeds the buffer exactly when it holds fewer than three, and the drop then leaves it empty |
| Convertor.Dispatch | app/src/main/java/com/badsheepy/bafflingvision/usbDataMonitor/SerialToDisplayMessageConvertor.kt:77-92 | a message is published only when something is consumed, and exactly when the buffer starts a complete version response or the 0x20 speed tag; an unknown leading byte is consumed alone with nothing published; a Bafang read or BBS-FW write code consumes nothing |
| Convertor.OnUsbDataReceived | app/src/main/java/com/badsheepy/bafflingvision/usbDataMonitor/SerialToDisplayMessageConvertor.kt:73-96 | the new buffer is a suffix of old buffer plus chunk; under two bytes nothing happens; only a firmware response or the speed request is ever published; a call that publishes nothing drops at most one byte |
| Convertor.FirmwareFrameDecoded | app/src/main/java/com/badsheepy/bafflingvision/usbDataMonitor/SerialToDisplayMessageConvertor.kt:286-296 | a firmware response is published exactly when the buffer starts one, with the version of its bytes 2-4, and exactly its eight bytes leave the buffer |
| Convertor.SpeedFrameDecoded | app/src/main/java/com/badsheepy/bafflingvision/usbDataMonitor/SerialToDisplayMessageConvertor.kt:321-324 | the speed request is published exactly when the buffer starts with 0x20, and three bytes are dropped |
| Convertor.UnknownByteDiscarded | app/src/main/java/com/badsheepy/bafflingvision/usbDataMonitor/SerialToDisplayMessageConvertor.kt:88-92 | one byte is dropped silently exactly when the leading byte is outside the dispatch table |
| Convertor.WaitsForMore | app/src/main/java/com/badsheepy/bafflingvision/usbDataMonitor/SerialToDisplayMessageConvertor.kt:77-96 | nothing is consumed exactly when there are under two bytes, a stuck family, or an incomplete firmware response |
| Convertor.Feed | app/src/main/java/com/badsheepy/bafflingvision/usbDataMonitor/SerialToDisplayMessageConvertor.kt:73-96 | over any run of chunks the buffer stays a suffix of everything delivered, and at most one message is published per chunk |
| Convertor.StuckIsPermanent | app/src/main/java/com/badsheepy/bafflingvision/usbDataMonitor/SerialToDisplayMessageConvertor.kt:307-331 | once the buffer starts with a placeholder family (Bafang read, write, or a foreign BBS-FW read opcode) every later byte is kept and nothing is ever published again |
| Convertor.StuckFromTheStart | app/src/main/java/com/badsheepy/bafflingvision/usbDataMonitor/SerialToDisplayMessageConvertor.kt:307-331 | a first chunk that starts a stuck family silences the decoder for the whole run |
| Convertor.OneFramePerChunk | app/src/main/java/com/badsheepy/bafflingvision/usbDataMonitor/SerialToDisplayMessageConvertor.kt:73-96 | a chunk holding two speed frames publishes one and keeps the other buffered |
| Convertor.FragmentedFirmwareResponse | app/src/main/java/com/badsheepy/bafflingvision/usbDataMonitor/SerialToDisplayMessageConvertor.kt:286-296 | a firmware response split four-and-four is held after the first half and published after the second |
| Convertor.NoiseThenSpeed | app/src/main/java/com/badsheepy/bafflingvision/usbDataMonitor/SerialToDisplayMessageConvertor.kt:86-92 | a noise byte before a speed frame costs exactly one call |
| Convertor.SplitSpeedFrameMisreadsThirdByte | app/src/main/java/com/badsheepy/bafflingvision/usbDataMonitor/SerialToDisplayMessageConvertor.kt:321-324 | as written, a two-byte speed prefix is published at once and the late third byte is parsed as a new header |
| Convertor.SplitSpeedFrameWedges | app/src/main/java/com/badsheepy/bafflingvision/usbDataMonitor/SerialToDisplayMessageConvertor.kt:321-324 | as written, a speed frame split after two bytes with third byte 0x11 publishes the request and then nothing, forever |
| Convertor.LoneBafangByteWedges | app/src/main/java/com/badsheepy/bafflingvision/usbDataMonitor/SerialToDisplayMessageConvertor.kt:307-319 | a buffer holding a Bafang read code is never consumed, whatever follows |
| Convertor.ProcessSpeedMessageComplete | app/src/main/java/com/badsheepy/bafflingvision/usbDataMonitor/SerialToDisplayMessageConvertor.kt:321-324 | corrected: the speed frame is consumed, and the request published, only once all three bytes are there |
| Convertor.OnUsbDataReceivedComplete | app/src/main/java/com/badsheepy/bafflingvision/usbDataMonitor/SerialToDisplayMessageConvertor.kt:73-96 | corrected: the buffer stays a suffix, and a published speed request removes exactly three buffered bytes |
| Convertor.SplitSpeedFrameComplete | app/src/main/java/com/badsheepy/bafflingvision/usbDataMonitor/SerialToDisplayMessageConvertor.kt:321-324 | corrected: a speed frame split after two bytes decodes exactly as the unsplit frame |
| Convertor.StopPollingJob | app/src/main/java/com/badsheepy/bafflingvision/usbDataMonitor/SerialToDisplayMessageConvertor.kt:277-283 | after `stopPolling` no job is active and nothing else changes |
| Convertor.Next | app/src/main/java/com/badsheepy/bafflingvision/usbDataMonitor/SerialToDisplayMessageConvertor.kt:61-215 | every event keeps "bound implies service assigned" and none starts the poller; callbacks and data change nothing while the monitor is unbound; bound, data runs the as-written decoder and updates only the buffer and the published message; no other event touches those |
| Convertor.ListenerCallbacks | app/src/main/java/com/badsheepy/bafflingvision/usbDataMonitor/SerialToDisplayMessageConvertor.kt:61-115 | on a bound monitor: attach publishes `Connected`; detach and connection errors also stop polling; a read error publishes an error message and leaves polling; a write error changes nothing |
| Convertor.BindingTransitions | app/src/main/java/com/badsheepy/bafflingvision/usbDataMonitor/SerialToDisplayMessageConvertor.kt:156-208 | bind publishes `ServiceBound`; unbind and stop leave the monitor unbound and polling stopped; connecting unbound reports the fixed error; `disconnectDevice` and `cleanup` leave polling stopped |
| Convertor.StopPollingIdempotent | app/src/main/java/com/badsheepy/bafflingvision/usbDataMonitor/SerialToDisplayMessageConvertor.kt:277-283 | stopping twice is stopping once |
| Convertor.RunNeverStartsPolling | app/src/main/java/com/badsheepy/bafflingvision/usbDataMonitor/SerialToDisplayMessageConvertor.kt:61-283 | no run of events turns the poller on: only `startPollingWithRequests` does |
| Convertor.RunKeepsValid | app/src/main/java/com/badsheepy/bafflingvision/usbDataMonitor/SerialToDisplayMessageConvertor.kt:157-165 | along any event sequence from a valid state, a bound monitor always has its service assigned |
| Convertor.ConnectBeforeBindFails | app/src/main/java/com/badsheepy/bafflingvision/usbDataMonitor/SerialToDisplayMessageConvertor.kt:135 | the monitor starts `Disconnected`, and connecting before binding publishes the not-bound error |
| Convertor.SendReadRequest | app/src/main/java/com/badsheepy/bafflingvision/usbDataMonitor/SerialToDisplayMessageConvertor.kt:225-227 | a request is only reported sent when the monitor is bound, assigned and the service accepts it |
| Convertor.StartPollingWithRequests | app/src/main/java/com/badsheepy/bafflingvision/usbDataMonitor/SerialToDisplayMessageConvertor.kt:235-272 | an active job returns true unchanged; otherwise polling starts exactly when one of the 91 checks (initial one included) sees a bound, assigned, connected monitor |
| Convertor.PollTick | app/src/main/java/com/badsheepy/bafflingvision/usbDataMonitor/SerialToDisplayMessageConvertor.kt:252-267 | a tick asks to send 11 20 exactly when polling is active and the device connected; delivery requires a bound monitor and an accepting service |
| Convertor.NoSendAfterStop | app/src/main/java/com/badsheepy/bafflingvision/usbDataMonitor/SerialToDisplayMessageConvertor.kt:277-283 | after stopPolling or stopMonitoring, or a detach or connection error delivered to the bound monitor, no later run of events, of any length, makes the poller send |
| PackagedMonitor.ProcessReadMessage | app/src/main/java/com/example/bafflingvision/usbDataMonitor/UsbDataMonitor.kt:186-196 | consumes eight bytes exactly when the sub-command is 01 and eight bytes are there, publishing a response over the WHOLE buffer |
| PackagedMonitor.Dispatch | app/src/main/java/com/example/bafflingvision/usbDataMonitor/UsbDataMonitor.kt:60-70 | bytes are consumed exactly when the buffer starts a complete version response, and a message is published exactly then; any other leading byte leaves the buffer as it is |
| PackagedMonitor.OnUsbDataReceived | app/src/main/java/com/example/bafflingvision/usbDataMonitor/UsbDataMonitor.kt:54-74 | the buffer changes only when a complete firmware response is published, and then loses exactly eight bytes |
| PackagedMonitor.WholeBufferResponseVersion | app/src/main/java/com/example/bafflingvision/usbDataMonitor/UsbDataMonitor.kt:186-196 | the over-long response still reports the version of its first eight bytes |
| PackagedMonitor.Feed | app/src/main/java/com/example/bafflingvision/usbDataMonitor/UsbDataMonitor.kt:54-74 | over any run the buffer stays a suffix of everything delivered, with at most one message per chunk |
| PackagedMonitor.StuckIsPermanent | app/src/main/java/com/example/bafflingvision/usbDataMonitor/UsbDataMonitor.kt:60-73 | once the leading byte is not 01, or the sub-command is not 01, every later byte is kept and nothing is published |
| PackagedMonitor.NoiseByteWedges | app/src/main/java/com/example/bafflingvision/usbDataMonitor/UsbDataMonitor.kt:68-70 | as written, one unknown byte before a complete firmware response means nothing is ever published |
| PackagedMonitor.OnUsbDataReceivedSkipping | app/src/main/java/com/example/bafflingvision/usbDataMonitor/UsbDataMonitor.kt:68-70 | corrected: an unknown leading byte is dropped alone, with nothing published |
| PackagedMonitor.SkippingResynchronises | app/src/main/java/com/example/bafflingvision/usbDataMonitor/UsbDataMonitor.kt:68-70 | corrected: k noise bytes before a firmware response delay it by k calls, after which exactly that response is published |
| PackagedMonitor.SkippingRecoversVersion | app/src/main/java/com/example/bafflingvision/usbDataMonitor/UsbDataMonitor.kt:68-70 | corrected: the response published after the noise carries the version the frame was built from |
| PackagedMonitor.Next | app/src/main/java/com/example/bafflingvision/usbDataMonitor/UsbDataMonitor.kt:43-158 | every event keeps "bound implies service assigned"; the sent message only changes by sending; callbacks and data change nothing while the monitor is unbound; bound, data runs the as-written decoder and updates only buffer and published message |
| PackagedMonitor.ListenerCallbacks | app/src/main/java/com/example/bafflingvision/usbDataMonitor/UsbDataMonitor.kt:43-91 | on a bound monitor, each callback's effect on status and error message; a write error changes nothing |
| PackagedMonitor.ConnectBeforeBindFails | app/src/main/java/com/example/bafflingvision/usbDataMonitor/UsbDataMonitor.kt:160-167 | the monitor starts `Disconnected`, and connecting before binding publishes the not-bound error |
| PackagedMonitor.SendReadRequest | app/src/main/java/com/example/bafflingvision/usbDataMonitor/UsbDataMonitor.kt:181-184 | the request is recorded as sent even when sending fails; success needs a bound monitor and an accepting service |
| PackagedMonitor.DisconnectDevice | app/src/main/java/com/example/bafflingvision/usbDataMonitor/UsbDataMonitor.kt:169-171 | disconnecting fails (the unassigned `lateinit` throws) exactly when no service was ever assigned |
| RootMonitor.ProcessReadMessage | app/src/main/java/com/example/bafflingvision/UsbDataMonitor.kt:126-136 | consumes eight bytes exactly when the opcode is 01 and eight bytes are there, publishing a response over the whole buffer |
| RootMonitor.OnUsbDataReceived | app/src/main/java/com/example/bafflingvision/UsbDataMonitor.kt:143-161 | a firmware response is published exactly when the buffer starts one; any byte other than READ/WRITE is dropped alone; a READ or WRITE lead without a complete response keeps the whole buffer and publishes nothing; under two bytes nothing happens |
| RootMonitor.Feed | app/src/main/java/com/example/bafflingvision/UsbDataMonitor.kt:143-161 | over any run the buffer stays a suffix of everything delivered, with at most one message per chunk |
| RootMonitor.NoiseIsSkipped | app/src/main/java/com/example/bafflingvision/UsbDataMonitor.kt:154-157 | k noise bytes before a firmware response delay it by k calls, after which exactly that response is published |
| RootMonitor.StuckIsPermanent | app/src/main/java/com/example/bafflingvision/UsbDataMonitor.kt:138-153 | a WRITE header, or a READ header with another opcode, keeps every later byte and publishes nothing |
| RootMonitor.Next | app/src/main/java/com/example/bafflingvision/UsbDataMonitor.kt:40-178 | every event keeps "bound implies service assigned"; callbacks and data change nothing while the monitor is unbound; bound, data runs the decoder and updates only buffer and published message |
| RootMonitor.ListenerCallbacks | app/src/main/java/com/example/bafflingvision/UsbDataMonitor.kt:116-178 | on a bound monitor: attach publishes `Connected(name)`, detach `Disconnected` and a connection error `Error(message)`, each changing nothing else; a read error also publishes the error message; a write error changes nothing |
| RootMonitor.BindingTransitions | app/src/main/java/com/example/bafflingvision/UsbDataMonitor.kt:39-59 | binding leaves the monitor bound, its service assigned and its status `ServiceBound`; unbinding leaves it unbound with status `ServiceUnbound` |
| RootMonitor.StopWhenUnbound | app/src/main/java/com/example/bafflingvision/UsbDataMonitor.kt:69-80 | `stop` on an unbound monitor changes nothing |
| RootMonitor.StopUnbinds | app/src/main/java/com/example/bafflingvision/UsbDataMonitor.kt:69-80 | `stop` on a bound monitor leaves it unbound with status `ServiceUnbound` |
| RootMonitor.ConnectBeforeBindFails | app/src/main/java/com/example/bafflingvision/UsbDataMonitor.kt:82-89 | the monitor starts `Disconnected`, and connecting before binding publishes the not-bound error |
| RootMonitor.SendReadRequest | app/src/main/java/com/example/bafflingvision/UsbDataMonitor.kt:103-106 | the request is recorded as sent even when sending fails; success needs a bound monitor and an accepting service |
| DecoderComparison.FirmwareResponseAgreement | app/src/main/java/com/badsheepy/bafflingvision/usbDataMonitor/SerialToDisplayMessageConvertor.kt:286-296 | on a complete firmware response all three decoders drop eight bytes and report the same version, though the older two keep the whole buffer in the message |
| DecoderComparison.ResponseFrameRoundTrip | app/src/main/java/com/badsheepy/bafflingvision/usbDataMonitor/SerialToDisplayMessageConvertor.kt:286-296 | a response frame built from any version, followed by any bytes, is published by each of the three decoders with exactly that version, and only the bytes behind it stay buffered |
| DecoderComparison.SpeedFrameDivergence | app/src/main/java/com/badsheepy/bafflingvision/usbDataMonitor/SerialToDisplayMessageConvertor.kt:86-87 | on a 0x20 frame only the convertor publishes; the packaged monitor is stuck for good; the root monitor drops the tag |
| DecoderComparison.BafangReadDivergence | app/src/main/java/com/example/bafflingvision/usbDataMonitor/UsbDataMonitor.kt:64-65 | on a 0x11 header the convertor and packaged monitor wait forever, the root monitor drops it |
| DecoderComparison.NoiseDivergence | app/src/main/java/com/example/bafflingvision/usbDataMonitor/UsbDataMonitor.kt:68-70 | on a byte no table knows, the convertor and root monitor drop it, the packaged monitor is stuck for good |

## Left out

- The USB serial service itself (device discovery, permissions, port I/O) is outside the model. Its results are parameters or listener events.
- `findAndConnectDevice` on a bound monitor may make the service call `onUsbConnectionError` before it returns. The model orders that callback as a separate event after `FindAndConnect`; the two are not one atomic step.
- The `com.badsheepy` `MessageType` enum is not modelled; its five family codes are taken from app/src/main/java/com/example/bafflingvision/MessageTypes.kt:3-9, the table the convertor's imports name.
- `startMonitoring` binds through the Android framework, so it is the identity; the binding arrives as a separate `ServiceConnected` event.
- Coroutine timing, `delay`, `Thread.sleep`, and the interleaving of the polling coroutine with other threads are not modelled. `PollTick` is one pass of the loop, and the wait loop's observations are an input.
- `cleanup` and `disconnectDevice` on the convertor cancel the coroutine. Only their effect on the polling flag is modelled.
- Logging, `toHexString` and the message `toString` (`"Bafang message: ..."`) are diagnostics and left out; `FWVersion.toString` is modelled.
- The `StateFlow` broadcast to subscribers is reduced to the last published value.
- The `BafangWriteMessage` class has no concrete subclass and the write opcodes (0xF0-0xF3) are never sent, so writes are not modelled.
- `BaseUartMessage` and the other empty base classes carry no behaviour.
- `ErrorProcessingMessage` wraps a `kotlin.Error`; the model keeps only its nullable message.
- `Convertor.SendReadRequest` returns whether the send succeeded but not the bytes handed to the service. `PollTick` states the bytes.
- `PackagedMonitor.DisconnectDevice` models the unguarded call only as success or the missing-service exception, not the service's own disconnect.

## Findings

| source | as written | input that shows it | evidently intended | confidence | as-written member | corrected member |
|---|---|---|---|---|---|---|
| app/src/main/java/com/badsheepy/bafflingvision/usbDataMonitor/SerialToDisplayMessageConvertor.kt:321-324 | `processBafangSpeedMessage` claims three bytes as soon as two are buffered (the dispatch only needs two) | chunks `20 a`, then `11`: the request is published at once, the late third byte `11` is read as a Bafang read header, and that header is never consumed, so nothing is ever published again | wait for all three bytes of the speed frame before consuming it | medium, not executed | Convertor.SplitSpeedFrameWedges | Convertor.SplitSpeedFrameComplete |
| app/src/main/java/com/example/bafflingvision/usbDataMonitor/UsbDataMonitor.kt:68-70 | an unknown leading byte returns 0 consumed, so it is never dropped, despite the comment saying it is ignored | chunk `00 01 01 v1 v2 v3 t1 t2 t3`: the firmware response behind the `00` is never published, whatever arrives later | drop the unknown byte, as both other decoders do | medium, not executed | PackagedMonitor.NoiseByteWedges | PackagedMonitor.SkippingResynchronises |

The monitors' `Next` functions run the decoders as written
(`Convertor.OnUsbDataReceived`, `PackagedMonitor.OnUsbDataReceived`). The
corrected decoders (`Convertor.OnUsbDataReceivedComplete`,
`PackagedMonitor.OnUsbDataReceivedSkipping`) stand alone, with the intended
properties proved about them.

=== FILE: bafang_message.dfy ===
/**
 * The message model of the BBS-FW / Bafang display protocol as the
 * `com.badsheepy` package declares it: every message has a (type, opcode)
 * pair, read requests encode to `[type, opcode]` unless they override the
 * encoding, and the checksum helper sums every byte after the first.
 */
module BafangMessage {

  import opened Bytes
  import opened Wrappers
  import opened MessageTypes
  import opened FwVersion

  // Opcodes of the bbs-fw display protocol.
  const OSFW_READ: byte := 0x01
  const OPCODE_READ_EVTLOG_ENABLE: byte := 0x02
  const OPCODE_READ_CONFIG: byte := 0x03

  /** The numbered read requests that keep the default two-byte encoding. */
  datatype Probe = Probe08 | Probe0A | Probe11 | Speed | Probe22 | DisplayCurrent

  function ProbeCode(p: Probe): byte
  {
    match p
    case Probe08 => 0x08
    case Probe0A => 0x0a
    case Probe11 => 0x11
    case Speed => 0x20
    case Probe22 => 0x22
    case DisplayCurrent => 0x0a
  }

  datatype Message =
    | ReadBasicData(code: byte)                                  // BafangReadBasicDataMessage
    | ReadFirmwareVersion                                        // BafangReadFirmwareVersionMessage
    | ReadEventLogStatus                                         // BafangReadEventLogStatusMessage
    | ReadProbe(probe: Probe)                                    // BafangMessage08Bafang, ..., BafangReadSpeedMessage
    | SpeedReceived(rangeExtensions: byte, rawWheelSpeed: byte)  // BafangReadSpeedMessageReceived
    | FirmwareVersionResponse(data: seq<byte>)                   // GetFirmwareVersionResponse
    | NoOp                                                       // NoOpBafangMessage
    | ErrorProcessing(error: Option<string>)                     // ErrorProcessingMessage

  /** The subclasses of `BafangReadMessage`: what `sendReadRequest` accepts. */
  predicate IsReadMessage(m: Message)
  {
    m.ReadBasicData? || m.ReadFirmwareVersion? || m.ReadEventLogStatus? || m.ReadProbe? || m.SpeedReceived?
  }

  /** The speed poll the decoder publishes and the poller sends. */
  const SPEED_REQUEST: Message := ReadProbe(Speed)

  /** `type`: every message declares the Bafang read family except the error sentinel. */
  function TypeOf(m: Message): (r: MessageType)
    ensures r == Unknown <==> m.ErrorProcessing?
    ensures IsReadMessage(m) || m.FirmwareVersionResponse? ==> r == BafangRead
  {
    if m.ErrorProcessing? then Unknown else BafangRead
  }

  /**
   * `opcode`: a probe's own code; the version request and its response share
   * the OSFW read opcode; a received speed frame keeps the speed probe's opcode.
   */
  function OpcodeOf(m: Message): (r: byte)
    ensures m.ReadProbe? ==> r == ProbeCode(m.probe)
    ensures m.ReadBasicData? ==> r == m.code
    ensures m.ReadFirmwareVersion? || m.ReadEventLogStatus? || m.FirmwareVersionResponse? ==> r == OSFW_READ
    ensures m.SpeedReceived? ==> r == ProbeCode(Speed)
  {
    match m
    case ReadBasicData(code) => code
    case ReadFirmwareVersion => OSFW_READ
    case ReadEventLogStatus => OSFW_READ
    case ReadProbe(p) => ProbeCode(p)
    case SpeedReceived(_, _) => 0x20
    case FirmwareVersionResponse(_) => OSFW_READ
    case NoOp => 0x00
    case ErrorProcessing(_) => 0x0f
  }

  /** The two requests whose `getBytes` is hard-coded instead of inherited. */
  predicate OverridesEncoding(m: Message)
  {
    m.ReadFirmwareVersion? || m.ReadEventLogStatus?
  }

  /** `getBytes`: the hard-coded frames, otherwise `[type code, opcode]` with no checksum. */
  function GetBytes(m: Message): (r: seq<byte>)
    ensures |r| == if OverridesEncoding(m) then 3 else 2
  {
    match m
    case ReadFirmwareVersion => [0x01, 0x01, 0x02]
    case ReadEventLogStatus => [Code(BbsfwRead), OPCODE_READ_EVTLOG_ENABLE, 0x03]
    case _ => [Code(TypeOf(m)), OpcodeOf(m)]
  }

  /** The (type, opcode) pair a frame's first two bytes name, if its first byte is a known family. */
  function Header(frame: seq<byte>): Option<(MessageType, byte)>
  {
    if |frame| < 2 then None
    else match FromCode(frame[0])
      case Some(t) => Some((t, frame[1]))
      case None => None
  }

  /** Every message with the inherited encoding can be identified again from its bytes. */
  lemma HeaderOfGetBytes(m: Message)
    requires !OverridesEncoding(m)
    ensures Header(GetBytes(m)) == Some((TypeOf(m), OpcodeOf(m)))
  {
    FromCodeInvertsCode(TypeOf(m));
  }

  /** The hard-coded requests start with the BBS-FW read code although their declared type is BAFANG_READ. */
  lemma OverriddenHeaders()
    ensures Header(GetBytes(ReadFirmwareVersion)) == Some((BbsfwRead, OSFW_READ))
    ensures Header(GetBytes(ReadEventLogStatus)) == Some((BbsfwRead, OPCODE_READ_EVTLOG_ENABLE))
    ensures TypeOf(ReadFirmwareVersion) == TypeOf(ReadEventLogStatus) == BafangRead
    ensures GetBytes(ReadFirmwareVersion) == [0x01, 0x01, 0x02]
    ensures GetBytes(ReadEventLogStatus) == [0x01, 0x02, 0x03]
  {
  }

  /** The probes, the basic-data read and the sentinels all encode as `[type, opcode]`. */
  lemma DefaultEncodings(code: byte)
    ensures GetBytes(ReadBasicData(code)) == [0x11, code]
    ensures GetBytes(ReadProbe(Probe08)) == [0x11, 0x08]
    ensures GetBytes(ReadProbe(Probe0A)) == [0x11, 0x0a]
    ensures GetBytes(ReadProbe(Probe11)) == [0x11, 0x11]
    ensures GetBytes(ReadProbe(Speed)) == [0x11, 0x20]
    ensures GetBytes(ReadProbe(Probe22)) == [0x11, 0x22]
    ensures GetBytes(ReadProbe(DisplayCurrent)) == GetBytes(ReadProbe(Probe0A))
    ensures GetBytes(NoOp) == [0x11, 0x00]
    ensures GetBytes(ErrorProcessing(None)) == [0x0f, 0x0f]
  {
  }

  /** The wire bytes of a request do not depend on which object was used to name a code. */
  lemma BasicDataMatchesProbes(p: Probe)
    ensures GetBytes(ReadBasicData(ProbeCode(p))) == GetBytes(ReadProbe(p))
  {
  }

  // ---- checksum ----

  /** What `computeChecksum` promises: the bytes after the first, summed and cut to eight bits. */
  function TailChecksum(buffer: seq<byte>): byte
  {
    if |buffer| <= 1 then 0 else Sum(buffer[1..]) % 256
  }

  /**
   * `computeChecksum`, step for step: signed bytes accumulated in a Kotlin `Int`
   * (which wraps at 32 bits), then `toByte()`.
   */
  method ComputeChecksum(buffer: seq<byte>) returns (c: byte)
    ensures c == TailChecksum(buffer)
  {
    var checksum: int := 0;
    if |buffer| <= 1 {
      return LowByte(checksum);
    }
    var i := 1;
    while i < |buffer|
      invariant 1 <= i <= |buffer|
      invariant checksum % 256 == Sum(buffer[1..i]) % 256
    {
      var tail := buffer[1..];
      assert buffer[1..i] == tail[..i - 1] && buffer[1..i + 1] == tail[..i];
      SumSnoc(tail, i - 1);
      AddKeepsLowByte(checksum, Signed(buffer[i]), Sum(buffer[1..i]), buffer[i]);
      checksum := AddInt(checksum, Signed(buffer[i]));
      i := i + 1;
    }
    assert buffer[1..i] == buffer[1..];
    c := LowByte(checksum);
  }

  /** The first byte never affects the checksum. */
  lemma TailChecksumIgnoresFirst(x: byte, y: byte, rest: seq<byte>)
    ensures TailChecksum([x] + rest) == TailChecksum([y] + rest)
  {
    assert ([x] + rest)[1..] == rest == ([y] + rest)[1..];
  }

  /** The unit test's vector: 0x51 + 0x04 + 0xB0 = 0x105, which truncates to 0x05. */
  lemma ChecksumTestVector()
    ensures TailChecksum([0x11, 0x51, 0x04, 0xB0]) == 0x05
  {
    var tail: seq<byte> := [0x51, 0x04, 0xB0];
    assert [0x11, 0x51, 0x04, 0xB0][1..] == tail;
    assert tail[..2] == [0x51, 0x04];
    assert [0x51, 0x04][..1] == [0x51];
    assert [0x51][..0] == [];
    assert Sum(tail) == 0x105;
  }

  /** The hard-coded firmware request does not carry this rule's checksum: it sums its first byte too. */
  lemma FirmwareRequestNotTailChecksummed()
    ensures GetBytes(ReadFirmwareVersion)[2] != TailChecksum(GetBytes(ReadFirmwareVersion)[..2])
    ensures GetBytes(ReadFirmwareVersion)[2] == Sum(GetBytes(ReadFirmwareVersion)[..2]) % 256
  {
    assert [0x01, 0x01, 0x02][..2] == [0x01, 0x01];
    assert [0x01, 0x01][1..] == [0x01];
    assert [0x01, 0x01][..1] == [0x01];
  }

  // ---- received messages ----

  /**
   * `GetFirmwareVersionResponse(data).getVersion()`: the signed bytes 2, 3 and 4
   * of a full response, all zero for a short one.
   */
  function GetVersion(m: Message): (v: FWVersion)
    requires m.FirmwareVersionResponse?
    ensures |m.data| < RESPONSE_SIZE ==> v == ZERO
    ensures |m.data| >= RESPONSE_SIZE ==>
      Unsigned(v.major) == m.data[2] && Unsigned(v.minor) == m.data[3] && Unsigned(v.patch) == m.data[4]
  {
    VersionOf(m.data)
  }

  /** `BafangReadSpeedMessageReceived(data)`; the constructor throws when `data` has fewer than two bytes. */
  function SpeedReceivedOf(data: seq<byte>): (r: Option<Message>)
    ensures r.Some? <==> |data| >= 2
    ensures r.Some? ==> r.value == SpeedReceived(data[0], data[1])
  {
    if |data| < 2 then None else Some(SpeedReceived(data[0], data[1]))
  }

  /** A received speed message carries its payload but encodes exactly like the speed request. */
  lemma SpeedReceivedEncodesAsRequest(data: seq<byte>)
    requires |data| >= 2
    ensures var m := SpeedReceivedOf(data).value;
      TypeOf(m) == TypeOf(SPEED_REQUEST) && OpcodeOf(m) == OpcodeOf(SPEED_REQUEST) && GetBytes(m) == GetBytes(SPEED_REQUEST)
  {
  }

  /** The sentinels' fixed (type, opcode) pairs. */
  lemma Sentinels(e: Option<string>)
    ensures (TypeOf(NoOp), OpcodeOf(NoOp)) == (BafangRead, 0x00)
    ensures (TypeOf(ErrorProcessing(e)), OpcodeOf(ErrorProcessing(e))) == (Unknown, 0x0f)
  {
  }
}

=== FILE: bytes.dfy ===
/**
 * Byte-level vocabulary shared by every part of the model: wire bytes, the
 * JVM's signed view of them, the Kotlin integer arithmetic the checksums use,
 * and the `drop` the decoders use to discard a consumed prefix.
 */
module Bytes {

  /** A byte as it travels on the wire: eight bits read as 0..255. */
  type byte = x: int | 0 <= x < 256

  /** A JVM `Byte`: the same eight bits read as two's complement. */
  type int8 = x: int | -128 <= x < 128

  const TWO_32: int := 0x1_0000_0000
  const INT_MIN: int := -0x8000_0000

  /** `Byte` value of a wire byte (what Kotlin sees when it reads `data[i]`). */
  function Signed(b: byte): (r: int8)
    ensures r % 256 == b
    ensures r < 0 <==> b >= 128
  {
    if b < 128 then b else b - 256
  }

  /** Wire bits of a JVM `Byte`; the inverse of `Signed`. */
  function Unsigned(x: int8): (r: byte)
    ensures Signed(r) == x
  {
    x % 256
  }

  /** Kotlin `Int.toByte()` / `UInt.toByte()`: keeps the low eight bits. */
  function LowByte(x: int): (r: byte)
    ensures (x - r) % 256 == 0
  {
    x % 256
  }

  /** Kotlin `Int` addition, which wraps in 32-bit two's complement. */
  function AddInt(a: int, b: int): (r: int)
    ensures INT_MIN <= r < -INT_MIN
    ensures (r - (a + b)) % TWO_32 == 0
    ensures r % 256 == (a + b) % 256
  {
    var r := (a + b - INT_MIN) % TWO_32 + INT_MIN;
    WrapKeepsLowByte(a + b - INT_MIN, INT_MIN);
    r
  }

  /** Kotlin `UInt` addition, which wraps modulo 2^32. */
  function AddUInt(a: int, b: int): (r: int)
    ensures 0 <= r < TWO_32
    ensures (r - (a + b)) % TWO_32 == 0
    ensures r % 256 == (a + b) % 256
  {
    WrapKeepsLowByte(a + b, 0);
    (a + b) % TWO_32
  }

  /** Kotlin `Byte.toUInt()`: sign-extends the byte to 32 bits. */
  function ToUInt(b: byte): (r: int)
    ensures 0 <= r < TWO_32
    ensures r % 256 == b
    ensures b < 128 ==> r == b
    ensures b >= 128 ==> r == TWO_32 - 256 + b
  {
    WrapKeepsLowByte(Signed(b), 0);
    Signed(b) % TWO_32
  }

  /** Reducing modulo 2^32 never disturbs the low eight bits. */
  lemma WrapKeepsLowByte(x: int, shift: int)
    ensures (x % TWO_32 + shift) % 256 == (x + shift) % 256
  {
    var q := x / TWO_32;
    assert x == q * TWO_32 + x % TWO_32;
    assert q * TWO_32 == (q * 0x100_0000) * 256;
  }

  /** Congruence modulo 256 is kept by addition. */
  lemma AddKeepsLowByte(a: int, b: int, c: int, d: int)
    requires a % 256 == c % 256 && b % 256 == d % 256
    ensures (a + b) % 256 == (c + d) % 256
  {
    assert a == (a / 256) * 256 + a % 256;
    assert c == (c / 256) * 256 + c % 256;
    assert b == (b / 256) * 256 + b % 256;
    assert d == (d / 256) * 256 + d % 256;
    assert (a + b) - (c + d) == (a / 256 + b / 256 - c / 256 - d / 256) * 256;
  }

  /** Plain sum of the bytes, no wrap-around; the reference the checksums are compared with. */
  function Sum(s: seq<byte>): nat
  {
    if |s| == 0 then 0 else Sum(s[..|s| - 1]) + s[|s| - 1]
  }

  lemma SumPair(a: byte, b: byte)
    ensures Sum([a, b]) == a + b
  {
    var s: seq<byte> := [a, b];
    assert s[..1] == [a];
    assert [a][..0] == [];
    assert Sum([a]) == Sum([]) + a;
    assert Sum(s) == Sum(s[..1]) + b;
  }

  /** Extending a sum by one byte adds that byte. */
  lemma SumSnoc(s: seq<byte>, i: nat)
    requires i < |s|
    ensures Sum(s[..i + 1]) == Sum(s[..i]) + s[i]
  {
    assert s[..i + 1][..i] == s[..i];
  }

  /** `b` ends with `a`: what remains after some prefix of `b` was removed. */
  predicate IsSuffix(a: seq<byte>, b: seq<byte>)
  {
    |a| <= |b| && a == b[|b| - |a|..]
  }

  /** Kotlin `drop(n)`: removes the first `n` elements, or all of them when there are fewer. */
  function Drop(s: seq<byte>, n: nat): (r: seq<byte>)
    ensures IsSuffix(r, s)
    ensures |r| == if n <= |s| then |s| - n else 0
  {
    if n >= |s| then [] else s[n..]
  }

  lemma SuffixTransitive(a: seq<byte>, b: seq<byte>, c: seq<byte>)
    requires IsSuffix(a, b) && IsSuffix(b, c)
    ensures IsSuffix(a, c)
  {
    assert c[|c| - |b|..][|b| - |a|..] == c[|c| - |a|..];
  }

  lemma SuffixExtend(a: seq<byte>, b: seq<byte>, c: seq<byte>)
    requires IsSuffix(a, b)
    ensures IsSuffix(a + c, b + c)
  {
    assert (b + c)[|b + c| - |a + c|..] == b[|b| - |a|..] + c;
  }

  /** What a step keeps, followed by what arrives later, is a suffix of everything. */
  lemma SuffixChain(a: seq<byte>, b: seq<byte>, c: seq<byte>, d: seq<byte>)
    requires IsSuffix(a, b) && IsSuffix(d, a + c)
    ensures IsSuffix(d, b + c)
  {
    SuffixExtend(a, b, c);
    SuffixTransitive(d, a + c, b + c);
  }

  lemma ConcatAssoc(a: seq<byte>, b: seq<byte>, c: seq<byte>)
    ensures a + b + c == a + (b + c)
  {
  }
}

=== FILE: connection.dfy ===
/**
 * The connection status every monitor publishes (`UsbStatus`), how the
 * transport's listener callbacks move it, and the bind/unbind bookkeeping the
 * monitors keep around the serial service.
 */
module Connection {

  import opened Wrappers

  /** The sealed status class: a data class per payload-carrying state, so equality compares payloads. */
  datatype UsbStatus =
    | ServiceBound
    | ServiceUnbound
    | Connected(deviceName: string)
    | Disconnected
    | Error(message: string)

  /** The callbacks of `UsbSerialListener` that concern the connection. */
  datatype ListenerEvent =
    | DeviceAttached(deviceName: string)
    | DeviceDetached
    | ConnectionError(message: string)
    | ReadError(cause: Option<string>)   // `IOException.message` is nullable
    | WriteError

  const READ_ERROR_PREFIX: string := "Read Error: "
  const NOT_BOUND_MESSAGE: string := "Service not bound. Call startMonitoring() first."

  /** `"Read Error: ${e.message}"`; a null message prints as "null". */
  function ReadErrorText(message: Option<string>): (r: string)
    ensures |r| >= |READ_ERROR_PREFIX| && r[..|READ_ERROR_PREFIX|] == READ_ERROR_PREFIX
    ensures message.Some? ==> r[|READ_ERROR_PREFIX|..] == message.value
  {
    READ_ERROR_PREFIX + match message case Some(m) => m case None => "null"
  }

  /** The status a listener callback publishes. */
  function ListenerStatus(status: UsbStatus, e: ListenerEvent): (r: UsbStatus)
    ensures e.WriteError? ==> r == status
    ensures r.Connected? <==> e.DeviceAttached? || (e.WriteError? && status.Connected?)
    ensures e.DeviceAttached? ==> r == Connected(e.deviceName)
    ensures r == Disconnected <==> e.DeviceDetached? || (e.WriteError? && status == Disconnected)
    ensures e.ConnectionError? || e.ReadError? ==> r.Error?
  {
    match e
    case DeviceAttached(name) => Connected(name)
    case DeviceDetached => Disconnected
    case ConnectionError(message) => Error(message)
    case ReadError(cause) => Error(ReadErrorText(cause))
    case WriteError => status
  }

  /** Apart from a write error, a callback's status does not depend on the status before it. */
  lemma ListenerStatusForgetsHistory(s1: UsbStatus, s2: UsbStatus, e: ListenerEvent)
    requires !e.WriteError?
    ensures ListenerStatus(s1, e) == ListenerStatus(s2, e)
  {
  }

  /** A read error is published as an `Error` whose text keeps the exception message. */
  lemma ReadErrorKeepsMessage(status: UsbStatus, m: string)
    ensures ListenerStatus(status, ReadError(Some(m))) == Error(READ_ERROR_PREFIX + m)
  {
  }

  /**
   * The monitor's view of the serial service: the published status, `isBound`,
   * and whether the `lateinit` service reference has ever been assigned.
   */
  datatype Link = Link(status: UsbStatus, isBound: bool, serviceInitialized: bool)

  /** The monitor starts with status `Disconnected` (not `ServiceUnbound`) and no service. */
  const INITIAL_LINK: Link := Link(Disconnected, false, false)

  /** Being bound implies the service reference was assigned: it is set just before `isBound`. */
  predicate Valid(l: Link)
  {
    l.isBound ==> l.serviceInitialized
  }

  /**
   * Whether the monitor's listener is registered with the service: it is set
   * in `onServiceConnected` just before `isBound` becomes true, and cleared
   * wherever `isBound` becomes false, so callbacks reach the monitor exactly
   * while it is bound.
   */
  predicate Listening(l: Link)
  {
    l.isBound
  }

  /**
   * `findAndConnectDevice`: without a binding it publishes an error and returns;
   * with one it asks the service to search, whose outcome arrives later as a
   * listener callback, so the status is not touched here.
   */
  function FindAndConnectDevice(l: Link): (r: Link)
    ensures !l.isBound ==> r == l.(status := Error(NOT_BOUND_MESSAGE))
    ensures l.isBound ==> r == l
  {
    if !l.isBound then l.(status := Error(NOT_BOUND_MESSAGE)) else l
  }

  /** `onServiceConnected`: assign the service, mark bound, publish `ServiceBound`, then search. */
  function OnServiceConnected(l: Link): (r: Link)
    ensures Valid(r) && r.isBound && r.status == ServiceBound
  {
    FindAndConnectDevice(Link(ServiceBound, true, true))
  }

  /**
   * `onServiceDisconnected` and a bound `stopMonitoring`: drop the binding and
   * publish `ServiceUnbound`. The source then re-reads the status and turns a
   * `Connected` into `Disconnected`, which can no longer apply: the value it
   * reads is the `ServiceUnbound` it has just written.
   */
  function Unbind(l: Link): (r: Link)
    ensures !r.isBound && r.status == ServiceUnbound
    ensures r.serviceInitialized == l.serviceInitialized
  {
    var status := ServiceUnbound;
    Link(if status.Connected? then Disconnected else status, false, l.serviceInitialized)
  }

  /** `stopMonitoring`: unbinds when bound, otherwise does nothing. */
  function StopMonitoring(l: Link): (r: Link)
    ensures l.isBound ==> !r.isBound && r.status == ServiceUnbound
    ensures !l.isBound ==> r == l
  {
    if l.isBound then Unbind(l) else l
  }

  function OnListener(l: Link, e: ListenerEvent): (r: Link)
    ensures r.isBound == l.isBound && r.serviceInitialized == l.serviceInitialized
  {
    l.(status := ListenerStatus(l.status, e))
  }

  /** `sendData` of the badsheepy monitor: refuses unless bound and the service is assigned. */
  function SendChecked(l: Link, serviceAccepts: bool): (ok: bool)
    ensures ok <==> l.isBound && l.serviceInitialized && serviceAccepts
  {
    if !l.isBound || !l.serviceInitialized then false else serviceAccepts
  }

  /** `sendData` of the example monitors: refuses only when unbound. */
  function SendIfBound(l: Link, serviceAccepts: bool): (ok: bool)
    ensures ok <==> l.isBound && serviceAccepts
  {
    if !l.isBound then false else serviceAccepts
  }

  /** On every valid link the extra initialisation check makes no difference. */
  lemma SendGuardsAgree(l: Link, serviceAccepts: bool)
    requires Valid(l)
    ensures SendChecked(l, serviceAccepts) == SendIfBound(l, serviceAccepts)
  {
  }
}

=== FILE: convertor.dfy ===
/**
 * `SerialToDisplayMessageConvertor` (the badsheepy monitor): the incremental
 * frame decoder, the monitor's published state, and the polling flag.
 *
 * Each `onUsbDataReceived` appends the chunk, makes ONE parse attempt chosen by
 * the buffer's first byte, and drops the prefix that attempt consumed. There is
 * no drain loop, so a second frame in the same chunk waits for the next chunk.
 */
module Convertor {

  import opened Bytes
  import opened Wrappers
  import opened MessageTypes
  import opened FwVersion
  import opened BafangMessage
  import opened Framing
  import opened Connection

  const SPEED_FRAME_SIZE: nat := 3

  /** `processReadMessageReceived`: a firmware response built from exactly its first eight bytes, or nothing. */
  function ProcessReadMessage(bytes: seq<byte>): (r: Extraction<Message>)
    ensures r.consumed > 0 <==> StartsWithResponse(bytes)
    ensures r.consumed > 0 ==> r == Extraction(RESPONSE_SIZE, Some(FirmwareVersionResponse(bytes[..RESPONSE_SIZE])))
    ensures r.consumed == 0 ==> r.emitted.None?
  {
    if |bytes| > 0 && bytes[0] == Code(BbsfwRead) && |bytes| > 1 then
      if bytes[1] == OSFW_READ then
        if RESPONSE_SIZE <= |bytes| then
          Extraction(RESPONSE_SIZE, Some(FirmwareVersionResponse(bytes[..RESPONSE_SIZE])))
        else Extraction(0, None)   // not enough data yet
      else Extraction(0, None)     // unknown sub-command
    else Extraction(0, None)
  }

  /** `processBafangReadMessageReceived`: a placeholder that never consumes anything. */
  function ProcessBafangReadMessage(bytes: seq<byte>): (r: Extraction<Message>)
    ensures r.consumed == 0 && r.emitted.None?
  {
    Extraction(0, None)
  }

  /** `processWriteMessageReceived`: a placeholder that never consumes anything. */
  function ProcessWriteMessage(bytes: seq<byte>): (r: Extraction<Message>)
    ensures r.consumed == 0 && r.emitted.None?
  {
    Extraction(0, None)
  }

  /**
   * `processBafangSpeedMessage`: publishes the speed poll object and claims
   * three bytes, however many there are. With fewer than three buffered it
   * claims more than the buffer holds, and `drop` then empties the buffer.
   */
  function ProcessSpeedMessage(bytes: seq<byte>): (r: Extraction<Message>)
    ensures r.emitted == Some(SPEED_REQUEST)
    ensures r.consumed > |bytes| <==> |bytes| < SPEED_FRAME_SIZE
    ensures |Drop(bytes, r.consumed)| == if |bytes| >= SPEED_FRAME_SIZE then |bytes| - SPEED_FRAME_SIZE else 0
  {
    Extraction(SPEED_FRAME_SIZE, Some(SPEED_REQUEST))
  }

  /**
   * The dispatch on the first byte, in the source's order; an unknown byte is
   * consumed alone. Only a firmware response or the speed request is ever
   * published, and publishing always consumes.
   */
  function Dispatch(buf: seq<byte>): (r: Extraction<Message>)
    requires |buf| >= 2
    ensures r.emitted.Some? ==> r.consumed > 0
    ensures r.emitted.Some? <==> StartsWithResponse(buf) || buf[0] == SPEED_TAG
    ensures buf[0] !in {Code(BbsfwRead), Code(BafangRead), Code(BbsfwWrite), SPEED_TAG} ==> r == Extraction(1, None)
    ensures buf[0] in {Code(BafangRead), Code(BbsfwWrite)} ==> r.consumed == 0
  {
    if buf[0] == Code(BbsfwRead) then ProcessReadMessage(buf)
    else if buf[0] == Code(BafangRead) then ProcessBafangReadMessage(buf)
    else if buf[0] == Code(BbsfwWrite) then ProcessWriteMessage(buf)
    else if buf[0] == SPEED_TAG then ProcessSpeedMessage(buf)
    else Extraction(1, None)
  }

  /** `USBListener.onUsbDataReceived` on the decoder's buffer. */
  function OnUsbDataReceived(buffer: seq<byte>, chunk: seq<byte>): (r: Step<Message>)
    ensures IsSuffix(r.buffer, buffer + chunk)
    ensures |buffer + chunk| < 2 ==> r == Step(buffer + chunk, None)
    ensures r.emitted.Some? ==> r.emitted.value.FirmwareVersionResponse? || r.emitted.value == SPEED_REQUEST
    ensures r.emitted.None? ==> |r.buffer| + 1 >= |buffer + chunk|
  {
    var buf := buffer + chunk;
    if |buf| < 2 then Step(buf, None)
    else
      var x := Dispatch(buf);
      Step(if x.consumed > 0 then Drop(buf, x.consumed) else buf, x.emitted)
  }

  // ---- what one call does, by outcome ----

  /** A firmware response is published exactly when one is complete at the front, built from its eight bytes. */
  lemma FirmwareFrameDecoded(buffer: seq<byte>, chunk: seq<byte>)
    ensures var buf := buffer + chunk; var r := OnUsbDataReceived(buffer, chunk);
      && ((r.emitted.Some? && r.emitted.value.FirmwareVersionResponse?) <==> StartsWithResponse(buf))
      && (StartsWithResponse(buf) ==>
            r == Step(buf[RESPONSE_SIZE..], Some(FirmwareVersionResponse(buf[..RESPONSE_SIZE])))
            && GetVersion(r.emitted.value) == VersionOf(buf))
  {
    var buf := buffer + chunk;
    if StartsWithResponse(buf) {
      VersionOfIgnoresTail(buf, []);
    }
  }

  /** A leading 0x20 always publishes the speed poll and drops three bytes, or the whole buffer when shorter. */
  lemma SpeedFrameDecoded(buffer: seq<byte>, chunk: seq<byte>)
    ensures var buf := buffer + chunk; var r := OnUsbDataReceived(buffer, chunk);
      && (r.emitted == Some(SPEED_REQUEST) <==> |buf| >= 2 && buf[0] == SPEED_TAG)
      && (|buf| >= 2 && buf[0] == SPEED_TAG ==> r.buffer == Drop(buf, SPEED_FRAME_SIZE))
  {
  }

  /** A leading byte outside the dispatch table is dropped on its own, and nothing is published. */
  lemma UnknownByteDiscarded(buffer: seq<byte>, chunk: seq<byte>)
    ensures var buf := buffer + chunk; var r := OnUsbDataReceived(buffer, chunk);
      (|buf| >= 2 && r.emitted.None? && r.buffer == buf[1..]) <==>
      (|buf| >= 2 && buf[0] !in {Code(BbsfwRead), Code(BafangRead), Code(BbsfwWrite), SPEED_TAG})
  {
  }

  /** The buffer can only wait for more bytes forever: it starts a family that never consumes. */
  predicate Stuck(buf: seq<byte>)
  {
    |buf| >= 1 &&
    (buf[0] == Code(BafangRead) || buf[0] == Code(BbsfwWrite) ||
     (buf[0] == Code(BbsfwRead) && |buf| >= 2 && buf[1] != OSFW_READ))
  }

  /** Nothing is consumed exactly when there are too few bytes, a stuck family, or an incomplete firmware response. */
  lemma WaitsForMore(buffer: seq<byte>, chunk: seq<byte>)
    ensures var buf := buffer + chunk; var r := OnUsbDataReceived(buffer, chunk);
      r == Step(buf, None) <==>
      (|buf| < 2 || Stuck(buf) || (buf[0] == Code(BbsfwRead) && buf[1] == OSFW_READ && |buf| < RESPONSE_SIZE))
  {
    var buf := buffer + chunk;
    var r := OnUsbDataReceived(buffer, chunk);
    if |buf| >= 2 && r.buffer == buf {
      assert r.buffer != buf[1..] by { assert |buf[1..]| == |buf| - 1; }
    }
  }

  // ---- runs of chunks ----

  /** The decoder fed one chunk per call. */
  function Feed(buffer: seq<byte>, chunks: seq<seq<byte>>): (r: Fed<Message>)
    ensures IsSuffix(r.buffer, buffer + Flatten(chunks))
    ensures |r.emitted| <= |chunks|
    decreases |chunks|
  {
    if |chunks| == 0 then Fed(buffer, [])
    else
      var s := OnUsbDataReceived(buffer, chunks[0]);
      var rest := Feed(s.buffer, chunks[1..]);
      SuffixOfRun(buffer, chunks, s.buffer, rest.buffer);
      Fed(rest.buffer, Emitted(s.emitted) + rest.emitted)
  }

  /** Feeding a non-empty run is one call followed by the rest of the run. */
  lemma FeedUnfold(buffer: seq<byte>, chunks: seq<seq<byte>>)
    requires |chunks| > 0
    ensures var s := OnUsbDataReceived(buffer, chunks[0]); var rest := Feed(s.buffer, chunks[1..]);
      Feed(buffer, chunks) == Fed(rest.buffer, Emitted(s.emitted) + rest.emitted)
  {
  }

  /** Once stuck, the decoder only grows: every later byte is kept and nothing is ever published again. */
  lemma {:induction false} StuckIsPermanent(buffer: seq<byte>, chunks: seq<seq<byte>>)
    requires Stuck(buffer)
    ensures Feed(buffer, chunks) == Fed(buffer + Flatten(chunks), [])
    decreases |chunks|
  {
    if |chunks| > 0 {
      var buf := buffer + chunks[0];
      StuckStep(buffer, chunks[0]);
      var s := OnUsbDataReceived(buffer, chunks[0]);
      assert s == Step(buf, None);
      StuckIsPermanent(buf, chunks[1..]);
      var rest := Feed(buf, chunks[1..]);
      assert rest == Fed(buf + Flatten(chunks[1..]), []);
      FeedUnfold(buffer, chunks);
      assert Feed(buffer, chunks) == Fed(rest.buffer, Emitted(s.emitted) + rest.emitted);
      assert Emitted(s.emitted) + rest.emitted == [];
      assert buf + Flatten(chunks[1..]) == buffer + Flatten(chunks);
    }
  }

  /** A stuck buffer keeps the new chunk whole and stays stuck. */
  lemma StuckStep(buffer: seq<byte>, chunk: seq<byte>)
    requires Stuck(buffer)
    ensures OnUsbDataReceived(buffer, chunk) == Step(buffer + chunk, None)
    ensures Stuck(buffer + chunk)
  {
    var buf := buffer + chunk;
    assert buf[0] == buffer[0];
    if |buffer| >= 2 {
      assert buf[1] == buffer[1];
    }
  }

  /** A run whose first chunk is already stuck on its own never publishes anything. */
  lemma {:induction false} StuckFromTheStart(chunks: seq<seq<byte>>)
    requires |chunks| > 0 && Stuck(chunks[0])
    ensures Feed([], chunks) == Fed(Flatten(chunks), [])
  {
    assert [] + chunks[0] == chunks[0];
    assert OnUsbDataReceived([], chunks[0]) == Step(chunks[0], None);
    StuckIsPermanent(chunks[0], chunks[1..]);
    FeedUnfold([], chunks);
  }

  lemma LoneBafangByteWedges(later: seq<seq<byte>>)
    ensures Feed([], [[0x11]] + later) == Fed([0x11] + Flatten(later), [])
  {
    var chunks: seq<seq<byte>> := [[0x11]] + later;
    assert chunks[0] == [0x11] && chunks[1..] == later;
    StuckFromTheStart(chunks);
  }

  /** One parse attempt per call: a chunk carrying two speed frames publishes one and keeps the other. */
  lemma OneFramePerChunk(a: byte, b: byte, c: byte, d: byte)
    ensures Feed([], [[0x20, a, b, 0x20, c, d]]) == Fed([0x20, c, d], [SPEED_REQUEST])
  {
    assert OnUsbDataReceived([], [0x20, a, b, 0x20, c, d]).buffer == [0x20, c, d];
  }

  /** A firmware response split four-and-four is published on the second chunk, not the first. */
  lemma FragmentedFirmwareResponse(v: FWVersion, trailer: seq<byte>)
    requires |trailer| == 3
    ensures var f := ResponseFrame(v, trailer);
      && OnUsbDataReceived([], f[..4]) == Step(f[..4], None)
      && OnUsbDataReceived(f[..4], f[4..]) == Step([], Some(FirmwareVersionResponse(f)))
  {
    var f := ResponseFrame(v, trailer);
    assert [] + f[..4] == f[..4];
    assert f[..4] + f[4..] == f;
    assert f[..RESPONSE_SIZE] == f;
  }

  /** A noise byte in front of a speed frame costs one extra call before the frame is published. */
  lemma NoiseThenSpeed(x: byte, a: byte, b: byte)
    requires x !in {Code(BbsfwRead), Code(BafangRead), Code(BbsfwWrite), SPEED_TAG}
    ensures OnUsbDataReceived([], [x, 0x20, a, b]) == Step([0x20, a, b], None)
    ensures OnUsbDataReceived([0x20, a, b], []) == Step([], Some(SPEED_REQUEST))
  {
    assert [] + [x, 0x20, a, b] == [x, 0x20, a, b];
    assert [0x20, a, b] + [] == [0x20, a, b];
  }

  /**
   * As written, a speed frame whose third byte arrives in a later chunk is
   * published early, and the late byte is then read as the header of a new frame.
   */
  lemma SplitSpeedFrameMisreadsThirdByte(a: byte, b: byte, rest: seq<byte>)
    ensures OnUsbDataReceived([], [0x20, a]) == Step([], Some(SPEED_REQUEST))
    ensures OnUsbDataReceived(OnUsbDataReceived([], [0x20, a]).buffer, [b] + rest) == OnUsbDataReceived([], [b] + rest)
  {
    assert [] + [0x20, a] == [0x20, a];
  }

  /** When that late byte is 0x11 the decoder is wedged for good: nothing after it is ever published. */
  lemma SplitSpeedFrameWedges(a: byte, later: seq<seq<byte>>)
    ensures Feed([], [[0x20, a], [0x11]] + later) == Fed([0x11] + Flatten(later), [SPEED_REQUEST])
  {
    var chunks: seq<seq<byte>> := [[0x20, a], [0x11]] + later;
    assert chunks[0] == [0x20, a] && chunks[1..] == [[0x11]] + later;
    SplitSpeedFrameMisreadsThirdByte(a, 0x11, []);
    FeedAfterPublish([], chunks, SPEED_REQUEST, []);
    LoneBafangByteWedges(later);
  }

  /** A call that publishes `m` and leaves `after` contributes `m` ahead of whatever the rest of the run publishes. */
  lemma FeedAfterPublish(buffer: seq<byte>, chunks: seq<seq<byte>>, m: Message, after: seq<byte>)
    requires |chunks| > 0
    requires OnUsbDataReceived(buffer, chunks[0]) == Step(after, Some(m))
    ensures var rest := Feed(after, chunks[1..]); Feed(buffer, chunks) == Fed(rest.buffer, [m] + rest.emitted)
  {
    FeedUnfold(buffer, chunks);
  }

  /** The evidently intended speed extractor: wait until all three bytes are there. */
  function ProcessSpeedMessageComplete(bytes: seq<byte>): (r: Extraction<Message>)
    ensures r.consumed <= |bytes|
    ensures r.emitted.Some? <==> r.consumed > 0
  {
    if |bytes| >= SPEED_FRAME_SIZE then Extraction(SPEED_FRAME_SIZE, Some(SPEED_REQUEST)) else Extraction(0, None)
  }

  /** `onUsbDataReceived` with the complete-frame speed extractor. */
  function OnUsbDataReceivedComplete(buffer: seq<byte>, chunk: seq<byte>): (r: Step<Message>)
    ensures IsSuffix(r.buffer, buffer + chunk)
    ensures r.emitted == Some(SPEED_REQUEST) ==> |buffer + chunk| >= SPEED_FRAME_SIZE && r.buffer == (buffer + chunk)[SPEED_FRAME_SIZE..]
  {
    var buf := buffer + chunk;
    if |buf| < 2 then Step(buf, None)
    else
      var x := if buf[0] == SPEED_TAG then ProcessSpeedMessageComplete(buf) else Dispatch(buf);
      Step(if x.consumed > 0 then Drop(buf, x.consumed) else buf, x.emitted)
  }

  /** With the complete-frame rule, how a speed frame is split over chunks no longer matters. */
  lemma SplitSpeedFrameComplete(a: byte, b: byte, rest: seq<byte>)
    ensures var split := OnUsbDataReceivedComplete(OnUsbDataReceivedComplete([], [0x20, a]).buffer, [b] + rest);
      && OnUsbDataReceivedComplete([], [0x20, a]) == Step([0x20, a], None)
      && split == OnUsbDataReceivedComplete([], [0x20, a, b] + rest)
      && split == Step(rest, Some(SPEED_REQUEST))
  {
    assert [0x20, a] + ([b] + rest) == [0x20, a, b] + rest;
    assert ([0x20, a, b] + rest)[3..] == rest;
  }

  // ---- the monitor ----

  /** The fields of the convertor that the model keeps: link, polling job flag, buffer, last published values. */
  datatype State = State(link: Link, polling: bool, buffer: seq<byte>, received: Message, errorMessage: Message)

  const INITIAL: State := State(INITIAL_LINK, false, [], NoOp, NoOp)

  datatype Event =
    | Listener(e: ListenerEvent)
    | DataReceived(chunk: seq<byte>)
    | ServiceConnected
    | ServiceDisconnected
    | StartMonitoring    // asks the platform to bind; the binding arrives as ServiceConnected
    | StopMonitoring
    | FindAndConnect
    | DisconnectDevice   // the service's disconnect reports back through the listener
    | StopPolling
    | Cleanup

  /** `stopPolling`: cancel the job if it is active, then forget it. */
  function StopPollingJob(s: State): (r: State)
    ensures !r.polling
    ensures r.(polling := s.polling) == s
  {
    s.(polling := false)
  }

  /**
   * One event of the monitor. Listener callbacks, received data included,
   * reach it only while it is bound (`Listening`); otherwise they change nothing.
   */
  function Next(s: State, e: Event): (r: State)
    ensures Valid(s.link) ==> Valid(r.link)
    ensures r.polling ==> s.polling
    ensures !e.DataReceived? ==> r.buffer == s.buffer && r.received == s.received
    ensures e.DataReceived? ==> r.link == s.link && r.polling == s.polling && r.errorMessage == s.errorMessage
    ensures (e.Listener? || e.DataReceived?) && !Listening(s.link) ==> r == s
    ensures e.DataReceived? && Listening(s.link) ==>
      var step := OnUsbDataReceived(s.buffer, e.chunk);
      r.buffer == step.buffer && r.received == (if step.emitted.Some? then step.emitted.value else s.received)
  {
    match e
    case Listener(le) =>
      if !Listening(s.link) then s
      else
        var s1 := s.(link := OnListener(s.link, le));
        (match le
         case DeviceDetached => StopPollingJob(s1)
         case ConnectionError(_) => StopPollingJob(s1)
         case ReadError(cause) => s1.(errorMessage := ErrorProcessing(cause))
         case _ => s1)
    case DataReceived(chunk) =>
      if !Listening(s.link) then s
      else
        var step := OnUsbDataReceived(s.buffer, chunk);
        s.(buffer := step.buffer, received := if step.emitted.Some? then step.emitted.value else s.received)
    case ServiceConnected => s.(link := OnServiceConnected(s.link))
    case ServiceDisconnected => StopPollingJob(s.(link := Unbind(s.link)))
    case StartMonitoring => s
    case StopMonitoring => StopPollingJob(s).(link := Connection.StopMonitoring(s.link))
    case FindAndConnect => s.(link := FindAndConnectDevice(s.link))
    case DisconnectDevice => StopPollingJob(s)
    case StopPolling => StopPollingJob(s)
    case Cleanup => StopPollingJob(s)
  }

  /** What each listener callback does to a bound monitor. */
  lemma ListenerCallbacks(s: State, name: string, message: string, cause: Option<string>)
    requires Listening(s.link)
    ensures Next(s, Listener(DeviceAttached(name))).link.status == Connected(name)
    ensures var r := Next(s, Listener(DeviceDetached)); r.link.status == Disconnected && !r.polling
    ensures var r := Next(s, Listener(ConnectionError(message))); r.link.status == Error(message) && !r.polling
    ensures var r := Next(s, Listener(ReadError(cause)));
      r.link.status == Error(ReadErrorText(cause)) && r.errorMessage == ErrorProcessing(cause) && r.polling == s.polling
    ensures Next(s, Listener(WriteError)) == s
  {
  }

  /** Binding, unbinding and stopping. */
  lemma BindingTransitions(s: State)
    ensures var r := Next(s, ServiceConnected); r.link.isBound && r.link.status == ServiceBound
    ensures var r := Next(s, ServiceDisconnected); !r.link.isBound && r.link.status == ServiceUnbound && !r.polling
    ensures var r := Next(s, StopMonitoring);
      !r.polling && !r.link.isBound && (s.link.isBound ==> r.link.status == ServiceUnbound) &&
      (!s.link.isBound ==> r.link.status == s.link.status)
    ensures !s.link.isBound ==> Next(s, FindAndConnect).link.status == Error(NOT_BOUND_MESSAGE)
    ensures s.link.isBound ==> Next(s, FindAndConnect) == s
    ensures !Next(s, DisconnectDevice).polling && !Next(s, Cleanup).polling
  {
  }

  /** Stopping the poller twice is the same as stopping it once. */
  lemma StopPollingIdempotent(s: State)
    ensures Next(Next(s, StopPolling), StopPolling) == Next(s, StopPolling)
  {
  }

  /** The state after a sequence of events. */
  function Run(s: State, events: seq<Event>): State
    decreases |events|
  {
    if |events| == 0 then s else Run(Next(s, events[0]), events[1..])
  }

  /** No event starts the poller: only `startPollingWithRequests` does, and it is not an event. */
  lemma {:induction false} RunNeverStartsPolling(s: State, events: seq<Event>)
    ensures Run(s, events).polling ==> s.polling
    decreases |events|
  {
    if |events| > 0 {
      RunNeverStartsPolling(Next(s, events[0]), events[1..]);
    }
  }

  /** Every state the monitor can reach has its service assigned whenever it is bound. */
  lemma {:induction false} RunKeepsValid(s: State, events: seq<Event>)
    requires Valid(s.link)
    ensures Valid(Run(s, events).link)
    decreases |events|
  {
    if |events| > 0 {
      RunKeepsValid(Next(s, events[0]), events[1..]);
    }
  }

  /** Connecting before the service is bound is reported through the status, from the very start. */
  lemma ConnectBeforeBindFails()
    ensures Next(INITIAL, FindAndConnect).link.status == Error(NOT_BOUND_MESSAGE)
    ensures INITIAL.link.status == Disconnected
  {
  }

  // ---- sending and polling ----

  /** `sendReadRequest`: the request's bytes go to the service only when it is bound and assigned. */
  function SendReadRequest(s: State, m: Message, serviceAccepts: bool): (ok: bool)
    requires IsReadMessage(m)
    ensures ok <==> s.link.isBound && s.link.serviceInitialized && serviceAccepts
  {
    SendChecked(s.link, serviceAccepts)
  }

  /** How many times the wait loop retries before giving up (its check runs once more than that). */
  const POLL_RETRIES: nat := 90

  /** The condition the wait loop of `startPollingWithRequests` waits for. */
  predicate ReadyToPoll(s: State)
  {
    s.link.isBound && s.link.serviceInitialized && s.link.status.Connected?
  }

  /**
   * `startPollingWithRequests`. An active job makes it return true at once.
   * Otherwise it checks the connection, sleeping between checks, until it is
   * ready or the retry counter, compared before its increment, reaches 90;
   * `observed[i]` is what the i-th check sees, the first being the current
   * state (other threads may connect or disconnect during the sleeps).
   */
  method StartPollingWithRequests(s: State, observed: seq<bool>) returns (ok: bool, r: State)
    requires |observed| > POLL_RETRIES
    requires observed[0] == ReadyToPoll(s)
    ensures s.polling ==> ok && r == s
    ensures !s.polling ==> (ok <==> exists i :: 0 <= i <= POLL_RETRIES && observed[i])
    ensures r == s.(polling := s.polling || ok)
  {
    if s.polling {
      return true, s;
    }
    var retries := 0;
    while !observed[retries]
      invariant 0 <= retries <= POLL_RETRIES
      invariant forall j :: 0 <= j < retries ==> !observed[j]
      decreases POLL_RETRIES - retries
    {
      var before := retries;
      retries := retries + 1;
      if before == POLL_RETRIES {
        return false, s;
      }
    }
    return true, s.(polling := true);
  }

  /** One pass of the polling loop: what it asks to send, and whether the send reported success. */
  datatype Tick = Tick(sent: Option<seq<byte>>, delivered: bool)

  /** One tick: send the speed poll if the job is alive and the device is connected; otherwise skip, and keep looping. */
  function PollTick(s: State, serviceAccepts: bool): (t: Tick)
    ensures t.sent.Some? <==> s.polling && s.link.status.Connected?
    ensures t.sent.Some? ==> t.sent.value == [0x11, 0x20]
    ensures t.delivered <==> t.sent.Some? && s.link.isBound && s.link.serviceInitialized && serviceAccepts
  {
    if s.polling && s.link.status.Connected? then
      Tick(Some(GetBytes(SPEED_REQUEST)), SendReadRequest(s, SPEED_REQUEST, serviceAccepts))
    else Tick(None, false)
  }

  /**
   * After a stop, or a detach or connection error that reaches the bound monitor,
   * the poller sends nothing, whatever events follow and whatever they do to the status.
   */
  lemma NoSendAfterStop(s: State, e: Event, later: seq<Event>, serviceAccepts: bool)
    requires e == StopPolling || e == Listener(DeviceDetached) || (e.Listener? && e.e.ConnectionError?) || e == StopMonitoring
    requires e.Listener? ==> Listening(s.link)
    ensures PollTick(Run(Next(s, e), later), serviceAccepts).sent.None?
  {
    RunNeverStartsPolling(Next(s, e), later);
  }
}

=== FILE: decoder_comparison.dfy ===
/**
 * The three generations of `onUsbDataReceived` side by side: where they agree
 * and where they part ways, on the same buffered bytes.
 */
module DecoderComparison {

  import opened Bytes
  import opened Wrappers
  import opened FwVersion
  import opened MessageTypes
  import Framing
  import BafangMessage
  import ExampleMessage
  import Convertor
  import PackagedMonitor
  import RootMonitor

  /**
   * On a complete firmware response all three consume exactly eight bytes and
   * publish the same version, although the two older ones attach every
   * buffered byte to the response.
   */
  lemma FirmwareResponseAgreement(buffer: seq<byte>, chunk: seq<byte>)
    requires StartsWithResponse(buffer + chunk)
    ensures var buf := buffer + chunk;
      var c := Convertor.OnUsbDataReceived(buffer, chunk);
      var p := PackagedMonitor.OnUsbDataReceived(buffer, chunk);
      var r := RootMonitor.OnUsbDataReceived(buffer, chunk);
      && c.buffer == p.buffer == r.buffer == buf[RESPONSE_SIZE..]
      && c.emitted == Some(BafangMessage.FirmwareVersionResponse(buf[..RESPONSE_SIZE]))
      && p.emitted == Some(BafangMessage.FirmwareVersionResponse(buf))
      && r.emitted == Some(ExampleMessage.FirmwareVersionResponse(buf))
      && BafangMessage.GetVersion(c.emitted.value) == BafangMessage.GetVersion(p.emitted.value)
      && BafangMessage.GetVersion(p.emitted.value) == ExampleMessage.GetVersion(r.emitted.value)
  {
    var buf := buffer + chunk;
    Convertor.FirmwareFrameDecoded(buffer, chunk);
    VersionOfIgnoresTail(buf, []);
  }

  /** A speed frame: only the convertor decodes it; the packaged monitor never moves again; the root one drops the tag. */
  lemma SpeedFrameDivergence(buffer: seq<byte>, chunk: seq<byte>)
    requires |buffer + chunk| >= 2 && (buffer + chunk)[0] == SPEED_TAG
    ensures var buf := buffer + chunk;
      && Convertor.OnUsbDataReceived(buffer, chunk).emitted == Some(BafangMessage.SPEED_REQUEST)
      && PackagedMonitor.OnUsbDataReceived(buffer, chunk) == Framing.Step(buf, None)
      && PackagedMonitor.Stuck(buf)
      && RootMonitor.OnUsbDataReceived(buffer, chunk) == Framing.Step(buf[1..], None)
  {
    Convertor.SpeedFrameDecoded(buffer, chunk);
  }

  /** A Bafang read header (0x11): the two monitors built on the five-family table wait on it, the root one drops it. */
  lemma BafangReadDivergence(buffer: seq<byte>, chunk: seq<byte>)
    requires |buffer + chunk| >= 2 && (buffer + chunk)[0] == Code(BafangRead)
    ensures var buf := buffer + chunk;
      && Convertor.OnUsbDataReceived(buffer, chunk) == Framing.Step(buf, None)
      && Convertor.Stuck(buf)
      && PackagedMonitor.OnUsbDataReceived(buffer, chunk) == Framing.Step(buf, None)
      && PackagedMonitor.Stuck(buf)
      && RootMonitor.OnUsbDataReceived(buffer, chunk) == Framing.Step(buf[1..], None)
  {
  }

  /** A byte no table knows: the convertor and the root monitor drop it, the packaged monitor keeps it for good. */
  lemma NoiseDivergence(buffer: seq<byte>, chunk: seq<byte>)
    requires |buffer + chunk| >= 2
    requires (buffer + chunk)[0] !in {Code(BbsfwRead), Code(BafangRead), Code(BbsfwWrite), SPEED_TAG}
    ensures var buf := buffer + chunk;
      && Convertor.OnUsbDataReceived(buffer, chunk) == Framing.Step(buf[1..], None)
      && PackagedMonitor.OnUsbDataReceived(buffer, chunk) == Framing.Step(buf, None)
      && PackagedMonitor.Stuck(buf)
      && RootMonitor.OnUsbDataReceived(buffer, chunk) == Framing.Step(buf[1..], None)
  {
    Convertor.UnknownByteDiscarded(buffer, chunk);
  }

  /**
   * Decoding undoes encoding: a response frame built from any version, with
   * any bytes behind it, is published by every decoder with that version.
   */
  lemma ResponseFrameRoundTrip(v: FWVersion, trailer: seq<byte>, rest: seq<byte>)
    requires |trailer| == 3
    ensures var c := Convertor.OnUsbDataReceived([], ResponseFrame(v, trailer) + rest);
      c.emitted.Some? && c.emitted.value.FirmwareVersionResponse? && BafangMessage.GetVersion(c.emitted.value) == v
      && c.buffer == rest
    ensures var p := PackagedMonitor.OnUsbDataReceived([], ResponseFrame(v, trailer) + rest);
      p.emitted.Some? && p.emitted.value.FirmwareVersionResponse? && BafangMessage.GetVersion(p.emitted.value) == v
      && p.buffer == rest
    ensures var r := RootMonitor.OnUsbDataReceived([], ResponseFrame(v, trailer) + rest);
      r.emitted.Some? && r.emitted.value.FirmwareVersionResponse? && ExampleMessage.GetVersion(r.emitted.value) == v
      && r.buffer == rest
  {
    var f := ResponseFrame(v, trailer);
    VersionOfResponseFrame(v, trailer);
    assert [] + (f + rest) == f + rest;
    assert (f + rest)[..RESPONSE_SIZE] == f && (f + rest)[RESPONSE_SIZE..] == rest;
    VersionOfIgnoresTail(f, rest);
    FirmwareResponseAgreement([], f + rest);
  }
}

=== FILE: example_message.dfy ===
/**
 * The message model of the `com.example` package: its own three-member type
 * table, and a `getBytes` that appends a checksum summing every byte.
 */
module ExampleMessage {

  import opened Bytes
  import opened Wrappers
  import opened FwVersion

  /** The type table local to this message file (it shadows the five-member table). */
  datatype MessageType = Read | Write | Unknown

  function Code(t: MessageType): byte
  {
    match t
    case Read => 0x01
    case Write => 0x02
    case Unknown => 0x0f
  }

  function FromCode(b: byte): (r: Option<MessageType>)
    ensures r.Some? ==> Code(r.value) == b
    ensures r.None? ==> forall t :: Code(t) != b
  {
    if b == 0x01 then Some(Read) else if b == 0x02 then Some(Write) else if b == 0x0f then Some(Unknown) else None
  }

  const OPCODE_READ_FW_VERSION: byte := 0x01
  const OPCODE_READ_EVTLOG_ENABLE: byte := 0x02
  const OPCODE_READ_CONFIG: byte := 0x03

  datatype Message =
    | ReadFirmwareVersion                       // ReadFirmwareVersionMessage
    | FirmwareVersionResponse(data: seq<byte>)  // GetFirmwareVersionResponse
    | NoOp                                      // NoOpBafangMessage
    | ErrorProcessing(error: Option<string>)    // ErrorProcessingMessage

  /** The subclasses of `ReadMessage`: what `sendReadRequest` accepts. */
  predicate IsReadMessage(m: Message)
  {
    m.ReadFirmwareVersion?
  }

  /** `type`: every message declares the read family except the error sentinel. */
  function TypeOf(m: Message): (r: MessageType)
    ensures r == Unknown <==> m.ErrorProcessing?
    ensures r != Write
  {
    if m.ErrorProcessing? then Unknown else Read
  }

  /** `opcode`: the version request and its response share one opcode. */
  function OpcodeOf(m: Message): (r: byte)
    ensures m.ReadFirmwareVersion? || m.FirmwareVersionResponse? ==> r == OPCODE_READ_FW_VERSION
  {
    match m
    case ReadFirmwareVersion => OPCODE_READ_FW_VERSION
    case FirmwareVersionResponse(_) => OPCODE_READ_FW_VERSION
    case NoOp => 0x00
    case ErrorProcessing(_) => 0x0f
  }

  /**
   * `buffer.sumOf { it.toUInt() }`: each byte sign-extended to a `UInt`, summed
   * with 32-bit wrap-around. Only its low eight bits are ever used, and those
   * are the low eight bits of the plain byte sum.
   */
  function SumOfUInt(buffer: seq<byte>): (r: int)
    ensures 0 <= r < TWO_32
    ensures r % 256 == Sum(buffer) % 256
  {
    if |buffer| == 0 then 0
    else
      var prefix := SumOfUInt(buffer[..|buffer| - 1]);
      var last := ToUInt(buffer[|buffer| - 1]);
      AddKeepsLowByte(prefix, last, Sum(buffer[..|buffer| - 1]), buffer[|buffer| - 1]);
      AddUInt(prefix, last)
  }

  /** `computeChecksum`: the eight-bit sum of every byte, the first included. */
  function ComputeChecksum(buffer: seq<byte>): (c: byte)
    ensures c == Sum(buffer) % 256
  {
    LowByte(SumOfUInt(buffer))
  }

  /** `getBytes`: type code, opcode, then the checksum of those two. */
  function GetBytes(m: Message): (r: seq<byte>)
    ensures |r| == 3
    ensures r[0] == Code(TypeOf(m)) && r[1] == OpcodeOf(m)
    ensures r[2] == (r[0] as int + r[1] as int) % 256
  {
    var header := [Code(TypeOf(m)), OpcodeOf(m)];
    SumPair(header[0], header[1]);
    header + [ComputeChecksum(header)]
  }

  /** Checks a three-byte request frame and names its (type, opcode); `None` if it is not one. */
  function ParseFrame(frame: seq<byte>): Option<(MessageType, byte)>
  {
    if |frame| != 3 || frame[2] != (frame[0] as int + frame[1] as int) % 256 then None
    else match FromCode(frame[0])
      case Some(t) => Some((t, frame[1]))
      case None => None
  }

  /** Every encoded message is a valid frame naming its own type and opcode. */
  lemma ParseGetBytes(m: Message)
    ensures ParseFrame(GetBytes(m)) == Some((TypeOf(m), OpcodeOf(m)))
  {
  }

  /** A frame that parses is exactly the encoding of what it names: no other byte string is accepted. */
  lemma ParseFrameSound(frame: seq<byte>, m: Message)
    requires ParseFrame(frame) == Some((TypeOf(m), OpcodeOf(m)))
    ensures frame == GetBytes(m)
  {
  }

  /** The firmware-version request is the hard-coded `01 01 02`; the sentinels follow the same rule. */
  lemma KnownEncodings(e: Option<string>)
    ensures GetBytes(ReadFirmwareVersion) == [0x01, 0x01, 0x02]
    ensures GetBytes(NoOp) == [0x01, 0x00, 0x01]
    ensures GetBytes(ErrorProcessing(e)) == [0x0f, 0x0f, 0x1e]
  {
  }

  /**
   * `GetFirmwareVersionResponse(data).getVersion()`: the signed bytes 2, 3 and 4
   * of a full response, all zero for a short one.
   */
  function GetVersion(m: Message): (v: FWVersion)
    requires m.FirmwareVersionResponse?
    ensures |m.data| < RESPONSE_SIZE ==> v == ZERO
    ensures |m.data| >= RESPONSE_SIZE ==>
      Unsigned(v.major) == m.data[2] && Unsigned(v.minor) == m.data[3] && Unsigned(v.patch) == m.data[4]
  {
    VersionOf(m.data)
  }

  /** The sentinels' fixed (type, opcode) pairs. */
  lemma Sentinels(e: Option<string>)
    ensures (TypeOf(NoOp), OpcodeOf(NoOp)) == (Read, 0x00)
    ensures (TypeOf(ErrorProcessing(e)), OpcodeOf(ErrorProcessing(e))) == (Unknown, 0x0f)
  {
  }
}

=== FILE: framing.dfy ===
/**
 * What every decoder in the model shares: the result of one
 * `onUsbDataReceived` call, and the fold of a decoder over a chunk sequence.
 */
module Framing {

  import opened Bytes
  import opened Wrappers

  /** An extractor's answer: how many bytes it consumed, and the message it published, if any. */
  datatype Extraction<M> = Extraction(consumed: nat, emitted: Option<M>)

  /** The buffer after one `onUsbDataReceived`, and the message it published, if any. */
  datatype Step<M> = Step(buffer: seq<byte>, emitted: Option<M>)

  /** The buffer after a run of chunks, and every message published on the way, in order. */
  datatype Fed<M> = Fed(buffer: seq<byte>, emitted: seq<M>)

  /** The byte stream a sequence of chunks delivers. */
  function Flatten(chunks: seq<seq<byte>>): seq<byte>
  {
    if |chunks| == 0 then [] else chunks[0] + Flatten(chunks[1..])
  }

  function Emitted<M>(o: Option<M>): (r: seq<M>)
    ensures |r| <= 1
  {
    if o.Some? then [o.value] else []
  }

  /**
   * One step keeps a suffix of buffer-plus-chunk, and the rest of the run a
   * suffix of what that step left plus the later chunks: so the whole run keeps
   * a suffix of the buffer plus everything delivered.
   */
  lemma SuffixOfRun(buffer: seq<byte>, chunks: seq<seq<byte>>, after: seq<byte>, last: seq<byte>)
    requires |chunks| > 0
    requires IsSuffix(after, buffer + chunks[0])
    requires IsSuffix(last, after + Flatten(chunks[1..]))
    ensures IsSuffix(last, buffer + Flatten(chunks))
  {
    var more := Flatten(chunks[1..]);
    assert Flatten(chunks) == chunks[0] + more;
    ConcatAssoc(buffer, chunks[0], more);
    SuffixChain(after, buffer + chunks[0], more, last);
  }
}

=== FILE: fw_version.dfy ===
/**
 * `FWVersion`: the firmware version triple carried by a firmware-version
 * response, its `toString`, and the response layout it is read from.
 */
module FwVersion {

  import opened Bytes
  import opened Wrappers

  /** A data class of three signed JVM bytes: equality is field-wise, no range check. */
  datatype FWVersion = FWVersion(major: int8, minor: int8, patch: int8)

  /** The all-zero triple; also what `getVersion` falls back to on a short response. */
  const ZERO: FWVersion := FWVersion(0, 0, 0)

  /** Length of a firmware-version response (`GetFirmwareVersionResponse.MESSAGE_SIZE`). */
  const RESPONSE_SIZE: nat := 8

  /** `GetFirmwareVersionResponse.getVersion`: bytes 2, 3 and 4 of the response, signed. */
  function VersionOf(data: seq<byte>): (v: FWVersion)
    ensures |data| < RESPONSE_SIZE ==> v == ZERO
  {
    if |data| < RESPONSE_SIZE then ZERO
    else FWVersion(Signed(data[2]), Signed(data[3]), Signed(data[4]))
  }

  /** A well-formed response to a version read: header `01 01`, the version, three trailing bytes. */
  function ResponseFrame(v: FWVersion, trailer: seq<byte>): (f: seq<byte>)
    requires |trailer| == 3
    ensures |f| == RESPONSE_SIZE
  {
    [0x01, 0x01, Unsigned(v.major), Unsigned(v.minor), Unsigned(v.patch)] + trailer
  }

  /** A complete version response heads `buf`: header `01 01` and at least eight bytes. */
  predicate StartsWithResponse(buf: seq<byte>)
  {
    |buf| >= RESPONSE_SIZE && buf[0] == 0x01 && buf[1] == 0x01
  }

  /** `VersionOf` reads back every version a response frame can carry. */
  lemma VersionOfResponseFrame(v: FWVersion, trailer: seq<byte>)
    requires |trailer| == 3
    ensures VersionOf(ResponseFrame(v, trailer)) == v
    ensures StartsWithResponse(ResponseFrame(v, trailer))
  {
  }

  /** Only the first eight bytes matter: anything after them does not change the version. */
  lemma VersionOfIgnoresTail(data: seq<byte>, tail: seq<byte>)
    requires |data| >= RESPONSE_SIZE
    ensures VersionOf(data + tail) == VersionOf(data)
    ensures VersionOf(data[..RESPONSE_SIZE]) == VersionOf(data)
  {
  }

  /** The short-data fallback cannot be told apart from a genuine "0.0.0" response. */
  lemma ShortResponseLooksLikeZero(short: seq<byte>, trailer: seq<byte>)
    requires |short| < RESPONSE_SIZE && |trailer| == 3
    ensures VersionOf(short) == VersionOf(ResponseFrame(ZERO, trailer))
  {
    VersionOfResponseFrame(ZERO, trailer);
  }

  // ---- decimal rendering, as Kotlin's string templates print a Byte ----

  predicate IsDigit(c: char)
  {
    '0' <= c <= '9'
  }

  predicate AllDigits(s: string)
  {
    forall i :: 0 <= i < |s| ==> IsDigit(s[i])
  }

  function DigitChar(d: nat): (c: char)
    requires d < 10
    ensures IsDigit(c)
  {
    (48 + d) as char
  }

  function DigitValue(c: char): (d: nat)
    requires IsDigit(c)
    ensures d < 10
  {
    c as int - 48
  }

  /** Decimal digits of `n`, most significant first, without leading zeros. */
  function NatToDecimal(n: nat): (s: string)
    ensures |s| >= 1 && AllDigits(s)
    ensures s[0] == '0' ==> n == 0
    decreases n
  {
    if n < 10 then [DigitChar(n)] else NatToDecimal(n / 10) + [DigitChar(n % 10)]
  }

  /** The number a string of decimal digits denotes. */
  function DecimalValue(s: string): nat
    requires AllDigits(s)
  {
    if |s| == 0 then 0 else DecimalValue(s[..|s| - 1]) * 10 + DigitValue(s[|s| - 1])
  }

  lemma {:induction false} DecimalRoundTrip(n: nat)
    ensures DecimalValue(NatToDecimal(n)) == n
    decreases n
  {
    if n >= 10 {
      var s := NatToDecimal(n);
      assert s[..|s| - 1] == NatToDecimal(n / 10);
      DecimalRoundTrip(n / 10);
    }
  }

  /** Kotlin's `toString` of a signed integer: a minus sign, then the magnitude. */
  function IntToDecimal(x: int): (s: string)
    ensures |s| >= 1
    ensures x < 0 <==> s[0] == '-'
  {
    if x < 0 then "-" + NatToDecimal(-x) else NatToDecimal(x)
  }

  /** Reads an optionally negative decimal numeral; `None` for anything else. */
  function ParseDecimal(s: string): Option<int>
  {
    if |s| >= 2 && s[0] == '-' && AllDigits(s[1..]) then Some(-(DecimalValue(s[1..]) as int))
    else if |s| >= 1 && AllDigits(s) then Some(DecimalValue(s))
    else None
  }

  lemma ParseIntToDecimal(x: int)
    ensures ParseDecimal(IntToDecimal(x)) == Some(x)
  {
    if x < 0 {
      assert IntToDecimal(x)[1..] == NatToDecimal(-x);
      DecimalRoundTrip(-x);
    } else {
      DecimalRoundTrip(x);
    }
  }

  // ---- FWVersion.toString and its inverse ----

  const PREFIX: string := "Version "

  /** `FWVersion.toString`: "Version major.minor.patch", each field printed signed. */
  function ToString(v: FWVersion): (s: string)
    ensures |s| > |PREFIX| && s[..|PREFIX|] == PREFIX
  {
    PREFIX + IntToDecimal(v.major) + "." + IntToDecimal(v.minor) + "." + IntToDecimal(v.patch)
  }

  /** Position of the first '.' in `s`, if any. */
  function IndexOfDot(s: string): (r: Option<nat>)
    ensures r.Some? ==> r.value < |s| && s[r.value] == '.' && '.' !in s[..r.value]
    ensures r.None? ==> '.' !in s
  {
    if |s| == 0 then None
    else if s[0] == '.' then Some(0)
    else match IndexOfDot(s[1..])
      case None => None
      case Some(i) => Some(i + 1)
  }

  /** `s` cut at every '.'. */
  function SplitDots(s: string): (parts: seq<string>)
    ensures |parts| >= 1
    decreases |s|
  {
    match IndexOfDot(s)
    case None => [s]
    case Some(i) => [s[..i]] + SplitDots(s[i + 1..])
  }

  lemma {:induction false} FirstDotAfter(a: string, rest: string)
    requires '.' !in a
    ensures IndexOfDot(a + "." + rest) == Some(|a|)
    decreases |a|
  {
    var s := a + "." + rest;
    if |a| > 0 {
      assert s[1..] == a[1..] + "." + rest;
      assert a[0] != '.';
      FirstDotAfter(a[1..], rest);
    }
  }

  lemma SplitAtFirstDot(a: string, rest: string)
    requires '.' !in a
    ensures SplitDots(a + "." + rest) == [a] + SplitDots(rest)
  {
    var s := a + "." + rest;
    FirstDotAfter(a, rest);
    assert s[..|a|] == a;
    assert s[|a| + 1..] == rest;
  }

  lemma DecimalHasNoDot(x: int)
    ensures '.' !in IntToDecimal(x)
  {
    var d := if x < 0 then NatToDecimal(-x) else NatToDecimal(x);
    assert forall i :: 0 <= i < |d| ==> d[i] != '.';
    if x < 0 {
      assert IntToDecimal(x) == "-" + d;
      assert forall i :: 0 <= i < |"-" + d| ==> ("-" + d)[i] != '.';
    }
  }

  /** A signed-byte field of a rendered version, if `s` is one. */
  function ParseField(s: string): Option<int8>
  {
    match ParseDecimal(s)
    case Some(x) => if -128 <= x < 128 then Some(x) else None
    case None => None
  }

  /** Reads back the text `ToString` produces; `None` for anything else. */
  function Parse(s: string): Option<FWVersion>
  {
    if |s| < |PREFIX| || s[..|PREFIX|] != PREFIX then None else ParseFields(s[|PREFIX|..])
  }

  /** Reads "major.minor.patch". */
  function ParseFields(body: string): Option<FWVersion>
  {
    var parts := SplitDots(body);
    if |parts| != 3 then None
    else match (ParseField(parts[0]), ParseField(parts[1]), ParseField(parts[2]))
      case (Some(a), Some(b), Some(c)) => Some(FWVersion(a, b, c))
      case _ => None
  }

  lemma ParsePrefixed(body: string)
    ensures Parse(PREFIX + body) == ParseFields(body)
  {
    var s := PREFIX + body;
    assert s[..|PREFIX|] == PREFIX;
    assert s[|PREFIX|..] == body;
  }

  lemma ParseFieldsOfDecimals(v: FWVersion)
    ensures ParseFields(IntToDecimal(v.major) + "." + (IntToDecimal(v.minor) + "." + IntToDecimal(v.patch))) == Some(v)
  {
    var a, b, c := IntToDecimal(v.major), IntToDecimal(v.minor), IntToDecimal(v.patch);
    DecimalHasNoDot(v.major);
    DecimalHasNoDot(v.minor);
    DecimalHasNoDot(v.patch);
    SplitAtFirstDot(a, b + "." + c);
    SplitAtFirstDot(b, c);
    assert SplitDots(c) == [c];
    ParseIntToDecimal(v.major);
    ParseIntToDecimal(v.minor);
    ParseIntToDecimal(v.patch);
  }

  /** `toString` loses nothing: the rendered text determines the version. */
  lemma ParseToString(v: FWVersion)
    ensures Parse(ToString(v)) == Some(v)
  {
    var a, b, c := IntToDecimal(v.major), IntToDecimal(v.minor), IntToDecimal(v.patch);
    var body := a + "." + (b + "." + c);
    assert ToString(v) == PREFIX + body;
    ParsePrefixed(body);
    ParseFieldsOfDecimals(v);
  }

  /** Two versions print alike only if they are equal. */
  lemma ToStringInjective(v: FWVersion, w: FWVersion)
    requires ToString(v) == ToString(w)
    ensures v == w
  {
    ParseToString(v);
    ParseToString(w);
  }

  /** A wire byte 0xFF is the JVM byte -1 and prints as "-1". */
  lemma WireFFPrintsMinusOne()
    ensures ToString(FWVersion(Signed(0xFF), 0, 0)) == "Version -1.0.0"
  {
  }
}

=== FILE: message_types.dfy ===
/**
 * The opcode table shared by the BBS-FW / Bafang decoders: the first byte of
 * every frame names its family.
 */
module MessageTypes {

  import opened Bytes
  import opened Wrappers

  datatype MessageType = BafangRead | BafangWrite | BbsfwRead | BbsfwWrite | Unknown

  /** The wire code of each family. */
  function Code(t: MessageType): byte
  {
    match t
    case BafangRead => 0x11
    case BafangWrite => 0x16
    case BbsfwRead => 0x01
    case BbsfwWrite => 0x02
    case Unknown => 0x0f
  }

  /** The family a leading byte names, if any. */
  function FromCode(b: byte): (r: Option<MessageType>)
    ensures r.Some? ==> Code(r.value) == b
    ensures r.None? ==> forall t :: Code(t) != b
  {
    if b == 0x11 then Some(BafangRead)
    else if b == 0x16 then Some(BafangWrite)
    else if b == 0x01 then Some(BbsfwRead)
    else if b == 0x02 then Some(BbsfwWrite)
    else if b == 0x0f then Some(Unknown)
    else None
  }

  /** The frame tag the decoder hard-codes for speed frames; it is not in the table. */
  const SPEED_TAG: byte := 0x20

  /** No two families share a code, so `FromCode` undoes `Code`. */
  lemma FromCodeInvertsCode(t: MessageType)
    ensures FromCode(Code(t)) == Some(t)
    ensures forall u :: Code(u) == Code(t) ==> u == t
  {
  }

  /** The speed tag never shadows a named family. */
  lemma SpeedTagIsNotAFamily()
    ensures FromCode(SPEED_TAG) == None
  {
  }
}

=== FILE: packaged_monitor.dfy ===
/**
 * `UsbDataMonitor` of the `com.example...usbDataMonitor` package: the decoder
 * generation before the convertor. It dispatches on the same opcode table but
 * has no speed-frame branch, hands the WHOLE buffer to the firmware response,
 * and consumes nothing on an unknown leading byte.
 */
module PackagedMonitor {

  import opened Bytes
  import opened Wrappers
  import opened MessageTypes
  import opened FwVersion
  import opened BafangMessage
  import opened Framing
  import opened Connection

  /** `processReadMessageReceived`: the response is built from every buffered byte, but only eight are consumed. */
  function ProcessReadMessage(bytes: seq<byte>): (r: Extraction<Message>)
    requires |bytes| >= 2
    ensures r.consumed > 0 <==> bytes[1] == OSFW_READ && |bytes| >= RESPONSE_SIZE
    ensures r.consumed > 0 ==> r == Extraction(RESPONSE_SIZE, Some(FirmwareVersionResponse(bytes)))
    ensures r.consumed == 0 ==> r.emitted.None?
  {
    if bytes[1] == OSFW_READ && RESPONSE_SIZE <= |bytes| then
      Extraction(RESPONSE_SIZE, Some(FirmwareVersionResponse(bytes)))
    else Extraction(0, None)
  }

  /**
   * The dispatch on the first byte. Only a complete firmware response is
   * consumed; 0x11, 0x02 and every byte outside the table are left in place.
   */
  function Dispatch(buf: seq<byte>): (r: Extraction<Message>)
    requires |buf| >= 2
    ensures r.consumed > 0 <==> StartsWithResponse(buf)
    ensures r.emitted.Some? <==> r.consumed > 0
    ensures buf[0] != Code(BbsfwRead) ==> r == Extraction(0, None)
  {
    if buf[0] == Code(BbsfwRead) then ProcessReadMessage(buf)
    else if buf[0] == Code(BafangRead) then Extraction(0, None)   // the Bafang read handler only logs
    else if buf[0] == Code(BbsfwWrite) then Extraction(0, None)   // the write handler is a stub
    else Extraction(0, None)                                      // an unknown byte is kept, not skipped
  }

  /** `USBListener.onUsbDataReceived`: only a complete firmware response ever moves the buffer. */
  function OnUsbDataReceived(buffer: seq<byte>, chunk: seq<byte>): (r: Step<Message>)
    ensures IsSuffix(r.buffer, buffer + chunk)
    ensures r.emitted.Some? <==> StartsWithResponse(buffer + chunk)
    ensures r.emitted.Some? ==>
      r == Step((buffer + chunk)[RESPONSE_SIZE..], Some(FirmwareVersionResponse(buffer + chunk)))
    ensures r.emitted.None? ==> r.buffer == buffer + chunk
  {
    var buf := buffer + chunk;
    if |buf| < 2 then Step(buf, None)
    else
      var x := Dispatch(buf);
      Step(if x.consumed > 0 then Drop(buf, x.consumed) else buf, x.emitted)
  }

  /** The published response is the whole buffer, yet its version is that of the first eight bytes. */
  lemma WholeBufferResponseVersion(buffer: seq<byte>, chunk: seq<byte>)
    requires StartsWithResponse(buffer + chunk)
    ensures var r := OnUsbDataReceived(buffer, chunk);
      GetVersion(r.emitted.value) == VersionOf((buffer + chunk)[..RESPONSE_SIZE])
  {
    VersionOfIgnoresTail(buffer + chunk, []);
  }

  function Feed(buffer: seq<byte>, chunks: seq<seq<byte>>): (r: Fed<Message>)
    ensures IsSuffix(r.buffer, buffer + Flatten(chunks))
    ensures |r.emitted| <= |chunks|
    decreases |chunks|
  {
    if |chunks| == 0 then Fed(buffer, [])
    else
      var s := OnUsbDataReceived(buffer, chunks[0]);
      var rest := Feed(s.buffer, chunks[1..]);
      SuffixOfRun(buffer, chunks, s.buffer, rest.buffer);
      Fed(rest.buffer, Emitted(s.emitted) + rest.emitted)
  }

  lemma FeedUnfold(buffer: seq<byte>, chunks: seq<seq<byte>>)
    requires |chunks| > 0
    ensures var s := OnUsbDataReceived(buffer, chunks[0]); var rest := Feed(s.buffer, chunks[1..]);
      Feed(buffer, chunks) == Fed(rest.buffer, Emitted(s.emitted) + rest.emitted)
  {
  }

  /** A buffer that can never start a firmware response: a first byte other than 0x01, or a second other than 0x01. */
  predicate Stuck(buf: seq<byte>)
  {
    (|buf| >= 1 && buf[0] != 0x01) || (|buf| >= 2 && buf[1] != 0x01)
  }

  lemma StuckStep(buffer: seq<byte>, chunk: seq<byte>)
    requires Stuck(buffer)
    ensures OnUsbDataReceived(buffer, chunk) == Step(buffer + chunk, None)
    ensures Stuck(buffer + chunk)
  {
    var buf := buffer + chunk;
    assert buf[0] == buffer[0];
    if |buffer| >= 2 {
      assert buf[1] == buffer[1];
    }
  }

  /** Once stuck, the decoder keeps every later byte and never publishes again. */
  lemma {:induction false} StuckIsPermanent(buffer: seq<byte>, chunks: seq<seq<byte>>)
    requires Stuck(buffer)
    ensures Feed(buffer, chunks) == Fed(buffer + Flatten(chunks), [])
    decreases |chunks|
  {
    if |chunks| > 0 {
      var buf := buffer + chunks[0];
      StuckStep(buffer, chunks[0]);
      var s := OnUsbDataReceived(buffer, chunks[0]);
      assert s == Step(buf, None);
      StuckIsPermanent(buf, chunks[1..]);
      var rest := Feed(buf, chunks[1..]);
      assert rest == Fed(buf + Flatten(chunks[1..]), []);
      FeedUnfold(buffer, chunks);
      assert Feed(buffer, chunks) == Fed(rest.buffer, Emitted(s.emitted) + rest.emitted);
      assert Emitted(s.emitted) + rest.emitted == [];
      assert buf + Flatten(chunks[1..]) == buffer + Flatten(chunks);
    }
  }

  // ---- finding: an unknown leading byte is never skipped ----

  /** Leading bytes the dispatch has no branch for. */
  predicate IsNoise(b: byte)
  {
    b != Code(BbsfwRead) && b != Code(BafangRead) && b != Code(BbsfwWrite)
  }

  /**
   * As written, one noise byte in front of a complete firmware response wedges
   * the decoder: the response is never published, whatever arrives later.
   */
  lemma NoiseByteWedges(x: byte, v: FWVersion, trailer: seq<byte>, later: seq<seq<byte>>)
    requires IsNoise(x) && |trailer| == 3
    ensures Feed([], [[x] + ResponseFrame(v, trailer)] + later).emitted == []
  {
    var first := [x] + ResponseFrame(v, trailer);
    var chunks := [first] + later;
    assert chunks[0] == first && chunks[1..] == later;
    assert [] + first == first;
    assert first[0] == x;
    var s := OnUsbDataReceived([], first);
    assert s == Step(first, None);
    StuckIsPermanent(first, later);
    FeedUnfold([], chunks);
    assert Feed([], chunks) == Fed(Feed(first, later).buffer, Emitted(s.emitted) + Feed(first, later).emitted);
  }

  /** The evidently intended rule (the later convertor's): an unknown leading byte is dropped on its own. */
  function OnUsbDataReceivedSkipping(buffer: seq<byte>, chunk: seq<byte>): (r: Step<Message>)
    ensures IsSuffix(r.buffer, buffer + chunk)
    ensures |buffer + chunk| >= 2 && IsNoise((buffer + chunk)[0]) ==> r == Step((buffer + chunk)[1..], None)
  {
    var buf := buffer + chunk;
    if |buf| < 2 then Step(buf, None)
    else if IsNoise(buf[0]) then Step(Drop(buf, 1), None)
    else OnUsbDataReceived(buffer, chunk)
  }

  function FeedSkipping(buffer: seq<byte>, chunks: seq<seq<byte>>): Fed<Message>
    decreases |chunks|
  {
    if |chunks| == 0 then Fed(buffer, [])
    else
      var s := OnUsbDataReceivedSkipping(buffer, chunks[0]);
      var rest := FeedSkipping(s.buffer, chunks[1..]);
      Fed(rest.buffer, Emitted(s.emitted) + rest.emitted)
  }

  /**
   * With the skipping rule, noise in front of a firmware response delays it by
   * one call per noise byte and no more: after that many further chunks the
   * response is published, and nothing else is.
   */
  lemma {:induction false} SkippingResynchronises(noise: seq<byte>, f: seq<byte>, t: seq<byte>, chunks: seq<seq<byte>>)
    requires forall i :: 0 <= i < |noise| ==> IsNoise(noise[i])
    requires |f| == RESPONSE_SIZE && StartsWithResponse(f)
    requires |chunks| == |noise| + 1
    ensures FeedSkipping(noise + f + t, chunks).emitted == [FirmwareVersionResponse(f + t + Flatten(chunks))]
    decreases |noise|
  {
    var buf := noise + f + t + chunks[0];
    var s := OnUsbDataReceivedSkipping(noise + f + t, chunks[0]);
    if |noise| == 0 {
      assert buf == f + t + chunks[0];
      assert buf[0] == 0x01 && buf[1] == 0x01;
      assert s.emitted == Some(FirmwareVersionResponse(buf));
      assert chunks[1..] == [];
      assert Flatten(chunks) == chunks[0] + Flatten([]);
      assert f + t + Flatten(chunks) == buf;
    } else {
      assert buf[0] == noise[0];
      assert s == Step(buf[1..], None);
      assert buf[1..] == noise[1..] + f + (t + chunks[0]);
      SkippingResynchronises(noise[1..], f, t + chunks[0], chunks[1..]);
      assert f + (t + chunks[0]) + Flatten(chunks[1..]) == f + t + Flatten(chunks);
    }
  }

  /** The published response carries the version of the frame behind the noise. */
  lemma SkippingRecoversVersion(noise: seq<byte>, v: FWVersion, trailer: seq<byte>, t: seq<byte>, chunks: seq<seq<byte>>)
    requires forall i :: 0 <= i < |noise| ==> IsNoise(noise[i])
    requires |trailer| == 3 && |chunks| == |noise| + 1
    ensures var r := FeedSkipping(noise + ResponseFrame(v, trailer) + t, chunks);
      |r.emitted| == 1 && r.emitted[0].FirmwareVersionResponse? && GetVersion(r.emitted[0]) == v
  {
    var f := ResponseFrame(v, trailer);
    VersionOfResponseFrame(v, trailer);
    SkippingResynchronises(noise, f, t, chunks);
    assert f + t + Flatten(chunks) == f + (t + Flatten(chunks));
    VersionOfIgnoresTail(f, t + Flatten(chunks));
  }

  // ---- the monitor ----

  datatype State = State(link: Link, buffer: seq<byte>, received: Message, errorMessage: Message, sent: Message)

  const INITIAL: State := State(INITIAL_LINK, [], NoOp, NoOp, NoOp)

  datatype Event =
    | Listener(e: ListenerEvent)
    | DataReceived(chunk: seq<byte>)
    | ServiceConnected
    | ServiceDisconnected
    | StartMonitoring    // asks the platform to bind; the binding arrives as ServiceConnected
    | StopMonitoring
    | FindAndConnect

  /**
   * One event of the monitor. Listener callbacks, received data included,
   * reach it only while it is bound (`Listening`); otherwise they change nothing.
   */
  function Next(s: State, e: Event): (r: State)
    ensures Valid(s.link) ==> Valid(r.link)
    ensures r.sent == s.sent
    ensures !e.DataReceived? ==> r.buffer == s.buffer && r.received == s.received
    ensures e.DataReceived? ==> r.link == s.link && r.errorMessage == s.errorMessage
    ensures (e.Listener? || e.DataReceived?) && !Listening(s.link) ==> r == s
    ensures e.DataReceived? && Listening(s.link) ==>
      var step := OnUsbDataReceived(s.buffer, e.chunk);
      r.buffer == step.buffer && r.received == (if step.emitted.Some? then step.emitted.value else s.received)
  {
    match e
    case Listener(le) =>
      if !Listening(s.link) then s
      else
        var s1 := s.(link := OnListener(s.link, le));
        if le.ReadError? then s1.(errorMessage := ErrorProcessing(le.cause)) else s1
    case DataReceived(chunk) =>
      if !Listening(s.link) then s
      else
        var step := OnUsbDataReceived(s.buffer, chunk);
        s.(buffer := step.buffer, received := if step.emitted.Some? then step.emitted.value else s.received)
    case ServiceConnected => s.(link := OnServiceConnected(s.link))
    case ServiceDisconnected => s.(link := Unbind(s.link))
    case StartMonitoring => s
    case StopMonitoring => s.(link := Connection.StopMonitoring(s.link))
    case FindAndConnect => s.(link := FindAndConnectDevice(s.link))
  }

  /** What each listener callback does to a bound monitor; a detach changes the status and nothing else. */
  lemma ListenerCallbacks(s: State, name: string, message: string, cause: Option<string>)
    requires Listening(s.link)
    ensures Next(s, Listener(DeviceAttached(name))) == s.(link := s.link.(status := Connected(name)))
    ensures Next(s, Listener(DeviceDetached)) == s.(link := s.link.(status := Disconnected))
    ensures Next(s, Listener(ConnectionError(message))) == s.(link := s.link.(status := Error(message)))
    ensures var r := Next(s, Listener(ReadError(cause)));
      r.link.status == Error(ReadErrorText(cause)) && r.errorMessage == ErrorProcessing(cause)
    ensures Next(s, Listener(WriteError)) == s
  {
  }

  /** Connecting before the service is bound is reported through the status, from the very start. */
  lemma ConnectBeforeBindFails()
    ensures Next(INITIAL, FindAndConnect).link.status == Error(NOT_BOUND_MESSAGE)
    ensures INITIAL.link.status == Disconnected
  {
  }

  datatype Sent = Sent(state: State, ok: bool)

  /** `sendReadRequest`: records the request as sent first, then reports whether the bound service took it. */
  function SendReadRequest(s: State, m: Message, serviceAccepts: bool): (r: Sent)
    requires IsReadMessage(m)
    ensures r.state == s.(sent := m)
    ensures r.ok <==> s.link.isBound && serviceAccepts
  {
    Sent(s.(sent := m), SendIfBound(s.link, serviceAccepts))
  }

  /** `disconnectDevice` calls the service without a guard: `None` is the exception for a never-assigned service. */
  function DisconnectDevice(s: State): (r: Option<State>)
    ensures r.None? <==> !s.link.serviceInitialized
    ensures r.Some? ==> r.value == s
  {
    if s.link.serviceInitialized then Some(s) else None
  }
}

=== FILE: root_monitor.dfy ===
/**
 * `UsbDataMonitor` of the top-level `com.example` package: the monitor is its
 * own serial listener, dispatches on the local READ/WRITE table, and drops an
 * unknown leading byte before trying again on the next chunk.
 */
module RootMonitor {

  import opened Bytes
  import opened Wrappers
  import opened FwVersion
  import opened ExampleMessage
  import opened Framing
  import opened Connection

  /** `processReadMessageReceived`: like the packaged monitor, the response carries the whole buffer. */
  function ProcessReadMessage(bytes: seq<byte>): (r: Extraction<Message>)
    requires |bytes| >= 2
    ensures r.consumed > 0 <==> bytes[1] == OPCODE_READ_FW_VERSION && |bytes| >= RESPONSE_SIZE
    ensures r.consumed > 0 ==> r == Extraction(RESPONSE_SIZE, Some(FirmwareVersionResponse(bytes)))
    ensures r.consumed == 0 ==> r.emitted.None?
  {
    if bytes[1] == OPCODE_READ_FW_VERSION && RESPONSE_SIZE <= |bytes| then
      Extraction(RESPONSE_SIZE, Some(FirmwareVersionResponse(bytes)))
    else Extraction(0, None)
  }

  /** A leading byte with no branch of its own: anything but READ and WRITE. */
  predicate IsNoise(b: byte)
  {
    b != Code(Read) && b != Code(Write)
  }

  /** `onUsbDataReceived` */
  function OnUsbDataReceived(buffer: seq<byte>, chunk: seq<byte>): (r: Step<Message>)
    ensures IsSuffix(r.buffer, buffer + chunk)
    ensures r.emitted.Some? <==> StartsWithResponse(buffer + chunk)
    ensures r.emitted.Some? ==>
      r == Step((buffer + chunk)[RESPONSE_SIZE..], Some(FirmwareVersionResponse(buffer + chunk)))
    ensures |buffer + chunk| >= 2 && IsNoise((buffer + chunk)[0]) ==> r == Step((buffer + chunk)[1..], None)
    ensures |buffer + chunk| >= 2 && !IsNoise((buffer + chunk)[0]) && !StartsWithResponse(buffer + chunk) ==>
      r == Step(buffer + chunk, None)
    ensures |buffer + chunk| < 2 ==> r == Step(buffer + chunk, None)
  {
    var buf := buffer + chunk;
    if |buf| < 2 then Step(buf, None)
    else
      var x :=
        if buf[0] == Code(Read) then ProcessReadMessage(buf)
        else if buf[0] == Code(Write) then Extraction(0, None)   // processWriteMessageReceived
        else Extraction(1, None);                                // drop the unknown byte alone
      Step(if x.consumed > 0 then Drop(buf, x.consumed) else buf, x.emitted)
  }

  function Feed(buffer: seq<byte>, chunks: seq<seq<byte>>): (r: Fed<Message>)
    ensures IsSuffix(r.buffer, buffer + Flatten(chunks))
    ensures |r.emitted| <= |chunks|
    decreases |chunks|
  {
    if |chunks| == 0 then Fed(buffer, [])
    else
      var s := OnUsbDataReceived(buffer, chunks[0]);
      var rest := Feed(s.buffer, chunks[1..]);
      SuffixOfRun(buffer, chunks, s.buffer, rest.buffer);
      Fed(rest.buffer, Emitted(s.emitted) + rest.emitted)
  }

  /**
   * Noise in front of a firmware response costs one call per noise byte: after
   * that many further chunks exactly the response has been published.
   */
  lemma {:induction false} NoiseIsSkipped(noise: seq<byte>, f: seq<byte>, t: seq<byte>, chunks: seq<seq<byte>>)
    requires forall i :: 0 <= i < |noise| ==> IsNoise(noise[i])
    requires |f| == RESPONSE_SIZE && StartsWithResponse(f)
    requires |chunks| == |noise| + 1
    ensures Feed(noise + f + t, chunks).emitted == [FirmwareVersionResponse(f + t + Flatten(chunks))]
    decreases |noise|
  {
    var buf := noise + f + t + chunks[0];
    var s := OnUsbDataReceived(noise + f + t, chunks[0]);
    if |noise| == 0 {
      assert buf == f + t + chunks[0];
      assert buf[0] == 0x01 && buf[1] == 0x01;
      assert s.emitted == Some(FirmwareVersionResponse(buf));
      assert chunks[1..] == [];
      assert Flatten(chunks) == chunks[0] + Flatten([]);
      assert f + t + Flatten(chunks) == buf;
    } else {
      assert buf[0] == noise[0];
      assert s == Step(buf[1..], None);
      assert buf[1..] == noise[1..] + f + (t + chunks[0]);
      NoiseIsSkipped(noise[1..], f, t + chunks[0], chunks[1..]);
      assert f + (t + chunks[0]) + Flatten(chunks[1..]) == f + t + Flatten(chunks);
    }
  }

  /** A WRITE frame, or a READ frame with another opcode, is never consumed. */
  predicate Stuck(buf: seq<byte>)
  {
    |buf| >= 2 && (buf[0] == Code(Write) || (buf[0] == Code(Read) && buf[1] != OPCODE_READ_FW_VERSION))
  }

  lemma StuckStep(buffer: seq<byte>, chunk: seq<byte>)
    requires Stuck(buffer)
    ensures OnUsbDataReceived(buffer, chunk) == Step(buffer + chunk, None)
    ensures Stuck(buffer + chunk)
  {
    var buf := buffer + chunk;
    assert buf[0] == buffer[0] && buf[1] == buffer[1];
  }

  /** Whatever arrives after a WRITE header or a foreign READ opcode is kept and never decoded. */
  lemma {:induction false} StuckIsPermanent(buffer: seq<byte>, chunks: seq<seq<byte>>)
    requires Stuck(buffer)
    ensures Feed(buffer, chunks) == Fed(buffer + Flatten(chunks), [])
    decreases |chunks|
  {
    if |chunks| > 0 {
      var buf := buffer + chunks[0];
      StuckStep(buffer, chunks[0]);
      var s := OnUsbDataReceived(buffer, chunks[0]);
      assert s == Step(buf, None);
      StuckIsPermanent(buf, chunks[1..]);
      var rest := Feed(buf, chunks[1..]);
      assert rest == Fed(buf + Flatten(chunks[1..]), []);
      assert Feed(buffer, chunks) == Fed(rest.buffer, Emitted(s.emitted) + rest.emitted);
      assert Emitted(s.emitted) + rest.emitted == [];
      assert buf + Flatten(chunks[1..]) == buffer + Flatten(chunks);
    }
  }

  // ---- the monitor ----

  datatype State = State(link: Link, buffer: seq<byte>, received: Message, errorMessage: Message, sent: Message)

  const INITIAL: State := State(INITIAL_LINK, [], NoOp, NoOp, NoOp)

  datatype Event =
    | Listener(e: ListenerEvent)
    | DataReceived(chunk: seq<byte>)
    | ServiceConnected
    | ServiceDisconnected
    | Start              // `start`, i.e. `startMonitoring`: asks the platform to bind
    | Stop               // `stop`, i.e. `stopMonitoring`
    | FindAndConnect

  /**
   * One event of the monitor. Listener callbacks, received data included,
   * reach it only while it is bound (`Listening`); otherwise they change nothing.
   */
  function Next(s: State, e: Event): (r: State)
    ensures Valid(s.link) ==> Valid(r.link)
    ensures r.sent == s.sent
    ensures !e.DataReceived? ==> r.buffer == s.buffer && r.received == s.received
    ensures e.DataReceived? ==> r.link == s.link && r.errorMessage == s.errorMessage
    ensures (e.Listener? || e.DataReceived?) && !Listening(s.link) ==> r == s
    ensures e.DataReceived? && Listening(s.link) ==>
      var step := OnUsbDataReceived(s.buffer, e.chunk);
      r.buffer == step.buffer && r.received == (if step.emitted.Some? then step.emitted.value else s.received)
  {
    match e
    case Listener(le) =>
      if !Listening(s.link) then s
      else
        var s1 := s.(link := OnListener(s.link, le));
        if le.ReadError? then s1.(errorMessage := ErrorProcessing(le.cause)) else s1
    case DataReceived(chunk) =>
      if !Listening(s.link) then s
      else
        var step := OnUsbDataReceived(s.buffer, chunk);
        s.(buffer := step.buffer, received := if step.emitted.Some? then step.emitted.value else s.received)
    case ServiceConnected => s.(link := OnServiceConnected(s.link))
    case ServiceDisconnected => s.(link := Unbind(s.link))
    case Start => s
    case Stop => s.(link := StopMonitoring(s.link))
    case FindAndConnect => s.(link := FindAndConnectDevice(s.link))
  }

  /**
   * What each callback does to a bound monitor, and what binding and unbinding
   * do to its status; a detach changes the status and nothing else.
   */
  lemma ListenerCallbacks(s: State, name: string, message: string, cause: Option<string>)
    requires Listening(s.link)
    ensures Next(s, Listener(DeviceAttached(name))) == s.(link := s.link.(status := Connected(name)))
    ensures Next(s, Listener(DeviceDetached)) == s.(link := s.link.(status := Disconnected))
    ensures Next(s, Listener(ConnectionError(message))) == s.(link := s.link.(status := Error(message)))
    ensures Next(s, Listener(ReadError(cause))) ==
      s.(link := s.link.(status := Error(ReadErrorText(cause))), errorMessage := ErrorProcessing(cause))
    ensures Next(s, Listener(WriteError)) == s
  {
  }

  /** Binding publishes `ServiceBound`, unbinding `ServiceUnbound`, whatever the monitor's state before. */
  lemma BindingTransitions(s: State)
    ensures var r := Next(s, ServiceConnected); r.link.isBound && r.link.serviceInitialized && r.link.status == ServiceBound
    ensures var r := Next(s, ServiceDisconnected); !r.link.isBound && r.link.status == ServiceUnbound
  {
  }

  /** `stop` only acts on a bound service; on an unbound one it changes nothing. */
  lemma StopWhenUnbound(s: State)
    requires !s.link.isBound
    ensures Next(s, Stop) == s
  {
  }

  /** After `stop` the service is unbound and the status never claims a live device. */
  lemma StopUnbinds(s: State)
    requires s.link.isBound
    ensures Next(s, Stop).link.status == ServiceUnbound
    ensures !Next(s, Stop).link.isBound
  {
  }

  /** Connecting before the service is bound reports the fixed message, from the very start. */
  lemma ConnectBeforeBindFails()
    ensures Next(INITIAL, FindAndConnect).link.status == Error(NOT_BOUND_MESSAGE)
    ensures INITIAL.link.status == Disconnected
  {
  }

  datatype Sent = Sent(state: State, ok: bool)

  /** `sendReadRequest`: records the request first, then reports whether the bound service took its bytes. */
  function SendReadRequest(s: State, m: Message, serviceAccepts: bool): (r: Sent)
    requires IsReadMessage(m)
    ensures r.state == s.(sent := m)
    ensures r.ok <==> s.link.isBound && serviceAccepts
  {
    Sent(s.(sent := m), SendIfBound(s.link, serviceAccepts))
  }
}

=== FILE: wrappers.dfy ===
/** The optional value used wherever the source uses a nullable or a missing result. */
module Wrappers {

  datatype Option<+T> = None | Some(value: T)
}
